=== FILE: README.md ===
# Sakani backend: chat store, socket handlers and rule sets, in Dafny

This project models the core of the Sakani housing backend (Node, Express,
Mongoose, socket.io). It is written as immutable datatypes and pure
functions. Every collection is a sequence of records, and every handler
takes the collections and the request and returns the new collections, the
HTTP status and, for socket events, the actions taken.

The centre is the **chat message store**, in three modules:

- `ChatModel`: the record and its schema defaults, plus the `fileType`
  enumeration and save validation.
- `ChatController`:
  - `saveMessage`, which the REST path and the socket handlers share;
  - the per-user history query;
  - per-user soft deletion through `deletedFor`;
  - directional mark-as-read;
  - the REST attachment upload, which bypasses `saveMessage`.
- `SocketServer`: the `joinRoom`, `sendMessage`, `markAsRead` and
  `uploadFile` events. Each one maps the store to a new store plus a list of
  rooms joined and payloads emitted.

Around the store sit smaller rule sets:

- `AuthController`: the registration checks, the reset-code state machine,
  the symmetric roommate assignment and the list of conversation partners.
- `UserModel`: the user record and the "never hash twice" pre-save hook.
- `RoommateController`: the one-sided, guarded roommate assignment, and the
  status update that skips validation.
- `Reservations`: creation guards, the caller's list, role-scoped pagination,
  status updates with their notification, cancellation and deletion.
- `Stats`: the three count aggregations.
- `Notifications`: the listing and read-marking handlers.
- `Rooms`: creation, listings and the availability update.
- `Upload`: the multer configuration, meaning the destination folder, the
  stored file name and the extension filter.
- `Documents`: the upload and delete routes, which keep each user's
  `documents` list in step with the documents collection.

Absent request fields are `Option.None`. JavaScript truthiness of a string
(`undefined`, `null` and `''` are falsy) is `Base.Truthy`. The clock, fresh
ids, the random reset code, `JSON.parse` and bcrypt are all parameters.

Some behaviour of the code is kept as written:

- Nothing rejects an empty message. `saveMessage` stores a record with no
  text and no file.
- The REST upload stores the URL `uploads/others/<file>` whatever folder
  multer chose. The socket upload stores the client's URL minus its scheme
  and host, which begins with `/`. Both are in the model, and
  `UploadPathsDifferInLeadingSlash` states the difference.
- There are two roommate assignments. `assignRoommate` is symmetric and
  updates both users. `assignRoommateToUser` updates only the roommate and
  refuses an already matched roommate.
- `findByIdAndUpdate` runs no validators. So `updateRoommateStatus` can store
  any status string, and `cancelReservation` stores 'Canceled', which the
  status update's allow-list does not contain. For this reason user status,
  user role and reservation status are strings.
- `getAllReservations` with page 0 asks Mongo to skip a negative count,
  which fails with 500.
- The chat folder goes into the upload path unchecked. A folder such as
  `../../x` yields a destination that starts with `./uploads/` yet resolves
  outside it (`ChatFolderEscapesUploads`).
- A bcrypt-shaped password is never hashed again. The shape test counts
  UTF-16 code units, so a 59-character password ending in an astral-plane
  character passes it (`AstralPasswordLooksHashed`).

## Model

| member | source | states |
|---|---|---|
| ChatModel.ParseFileType | sakani-backend/models/Chat.js:8-12 | the enum validator accepts exactly 'image', 'document' and 'none', and the accepted value is the one named |
| ChatModel.FileTypeRoundTrip | sakani-backend/models/Chat.js:8-12 | every enum value survives the round trip through its stored name |
| ChatModel.Create | sakani-backend/models/Chat.js:3-16 | save succeeds iff both participants are present and any given fileType is in the enum; message and fileUrl default to '', fileType to 'none', timestamp to now, read to false, deletedFor to []; every field the caller gives, read and deletedFor included, is stored as given |
| ChatController.SaveMessage | sakani-backend/controllers/chatController.js:5-24 | a falsy fileUrl becomes '' and a falsy fileType 'none'; the saved record is appended with read=false and empty deletedFor; a refused save leaves the store unchanged |
| ChatController.SaveMessageIgnoresReadAndDeletedFor | sakani-backend/controllers/chatController.js:9-15 | whatever read and deletedFor the caller passes, the stored record is the same |
| ChatController.Ingest | sakani-backend/controllers/chatController.js:9-15 | participants, text and timestamp pass through; read becomes false and deletedFor empty; a falsy fileUrl becomes '' and a falsy fileType 'none'; the defaulted fileType is in the enum iff the caller gave none or an enum value |
| ChatController.History | sakani-backend/controllers/chatController.js:31-39 | the result holds exactly the views (without deletedFor) of messages of the pair, in either direction, that the viewer has not deleted, each view as many times as stored messages show it |
| ChatController.GetMessages | sakani-backend/controllers/chatController.js:27-41 | the visible messages of the pair in non-decreasing timestamp order, each view as many times as stored messages show it |
| ChatController.DeleteChat | sakani-backend/controllers/chatController.js:49-64 | the user joins deletedFor on exactly the messages of the pair in both directions, never twice; no record is removed and no other field changes |
| ChatController.DeleteChatIdempotent | sakani-backend/controllers/chatController.js:53-61 | deleting a conversation twice equals deleting it once |
| ChatController.DeleteChatEmptiesHistory | sakani-backend/controllers/chatController.js:31-61 | after deleteChat(u, v), u's history with v is empty |
| ChatController.DeleteChatKeepsOtherViewers | sakani-backend/controllers/chatController.js:31-61 | after deleteChat(u, v), the history of any other viewer with anyone is unchanged |
| ChatController.DeleteChatIsPerUser | sakani-backend/controllers/chatController.js:27-69 | getMessages(u, v) becomes empty while getMessages of every other viewer, v included, is unchanged |
| ChatController.DeleteChatRequest | sakani-backend/controllers/chatController.js:49-64 | always 200 and nothing created; with both ids the store is deleteChat's result; with a missing id nothing changes |
| ChatController.DeleteChatRequestHidesConversation | sakani-backend/controllers/chatController.js:27-64 | after the REST delete the caller's messages with the partner are empty and every other viewer's are unchanged |
| ChatController.MarkRead | sakani-backend/controllers/chatController.js:81-84 | a message is read afterwards iff it was read or was sent by the partner to the reader; nothing else changes |
| ChatController.MarkReadIdempotent | sakani-backend/controllers/chatController.js:81-84 | marking twice equals marking once, and afterwards no unread message from the partner to the reader remains |
| ChatController.MarkReadIsDirectional | sakani-backend/controllers/chatController.js:81-84 | a message not sent by the partner to the reader, including one the reader sent, is left exactly as it was |
| ChatController.MarkAsRead | sakani-backend/controllers/chatController.js:72-92 | 400 with the store unchanged iff userId or roommateId is falsy, otherwise 200 and the directional update |
| ChatController.UploadFileAndSaveMessage | sakani-backend/controllers/chatController.js:95-124 | no file: 400 and nothing stored; otherwise fileUrl 'uploads/others/'+filename, fileType 'image' iff the mimetype starts with 'image/' (else 'document'), message defaulted to '', timestamp now, read false, deletedFor empty; missing ids: 500 |
| ChatController.KindOfMimetype | sakani-backend/controllers/chatController.js:110 | 'image' iff the mimetype starts with 'image/', else 'document'; either one passes the fileType enum |
| ChatController.RestUploadAgreesWithSaveMessage | sakani-backend/controllers/chatController.js:103-116 | the REST upload stores exactly what saveMessage would store for the same fields |
| ChatController.RestUploadUrlIgnoresDestination | sakani-backend/controllers/chatController.js:103-110 | with a chat folder, multer writes under './uploads/chats/<folder>' but the stored fileUrl still names 'uploads/others/' |
| SocketServer.StripBaseUrl | sakani-backend/server.js:115-116 | without an http(s)://host prefix the url is unchanged; with one, the result is the url minus scheme and host, and is empty or starts with '/' |
| SocketServer.Handle | sakani-backend/server.js:53-145 | every emitted receiveMessage carries the record appended to the store by that event; the store only grows by one record or keeps its length; at most one action per event |
| SocketServer.SendMessageContract | sakani-backend/server.js:67-87 | sendMessage saves the defaulted fields through saveMessage and emits receiveMessage with the saved record to the room iff the save succeeds; the saved record has the request's sender and receiver and, for a truthy fileType, that enum value; a failed save changes and emits nothing |
| SocketServer.MarkAsReadEventContract | sakani-backend/server.js:90-109 | a missing userId, roommateId or roomId changes and emits nothing; otherwise the store equals the REST mark-as-read result and one messageRead {userId, roommateId, roomId} is emitted |
| SocketServer.UploadFileContract | sakani-backend/server.js:111-134 | a record is stored iff file and url are present, both ids are truthy and any truthy fileType is in the enum; then exactly one receiveMessage to the room, with the request's sender and receiver, message '', the stripped url, the kind from the mimetype or the given fileType, timestamp now, unread and not deleted; otherwise nothing is stored or emitted |
| SocketServer.UploadPathsDifferInLeadingSlash | sakani-backend/server.js:114-129 | for the same file the socket path stores '/uploads/others/<name>' where the REST path stores 'uploads/others/<name>', and every other field agrees |
| SocketServer.Run | sakani-backend/server.js:53-145 | over a run of events the store grows by exactly the number of receiveMessage emits |
| SocketServer.JoinsAreStoreNeutral | sakani-backend/server.js:57-64 | removing every joinRoom event from a run leaves the final store and the emitted payloads unchanged |
| Upload.Destination | sakani-backend/middleware/upload.js:7-26 | every destination string begins with './uploads/' (a prefix of the string, not of the resolved path) |
| Upload.DestinationPriority | sakani-backend/middleware/upload.js:11-19 | isSignup selects './uploads/pictures' whatever else is set; then chatFolder selects './uploads/chats/<folder>' whatever the user; then a user id selects './uploads/<id>'; with none of the three, './uploads/others' |
| Upload.OthersFolderExactly | sakani-backend/middleware/upload.js:11-19 | the destination is './uploads/others' iff neither isSignup nor chatFolder is set and the user id is absent or is the string 'others' |
| Upload.ChatFolderResolution | sakani-backend/middleware/upload.js:13-14 | the chat destination resolves to the chat folder's segments resolved from 'uploads/chats', so '..' segments climb out of it |
| Upload.ChatFolderEscapesUploads | sakani-backend/middleware/upload.js:13-14 | the chat folder '../../x' gives a destination string under './uploads/' that resolves to 'x', outside 'uploads' |
| Upload.DecimalRoundTrip | sakani-backend/middleware/upload.js:28 | the decimal rendering of a timestamp reads back as the same number |
| Upload.StoredName | sakani-backend/middleware/upload.js:28 | the stored name is a non-empty run of decimal digits (the timestamp), the first dash, then the original name unchanged |
| Upload.StoredNameRoundTrip | sakani-backend/middleware/upload.js:27-29 | the stored name '<timestamp>-<originalname>' determines both the timestamp and the original name, whatever dashes the name contains |
| Upload.FileFilter | sakani-backend/middleware/upload.js:33-52 | accepts iff the lower-cased extension is one of '.pdf', '.jpeg', '.jpg', '.png'; a rejection carries the message 'Invalid file type. Only PDF, JPEG, and PNG are allowed.' |
| Upload.FileFilterIgnoresMimetype | sakani-backend/middleware/upload.js:40-43 | the application/octet-stream clause adds nothing: the decision never depends on the mimetype |
| Upload.FileFilterIgnoresCase | sakani-backend/middleware/upload.js:36 | a name ending in an allowed extension written in upper case ('.PNG') is accepted |
| Upload.Extname | sakani-backend/middleware/upload.js:36 | a non-empty extension is a proper suffix of the last path segment that starts with its only '.' and holds no '/' |
| UserModel.NewUser | sakani-backend/models/User.js:18-21 | a new user has status 'Available', no partner, no documents, no reset code and no device token; with an enum role and non-empty required fields it satisfies the schema |
| UserModel.BcryptHashShape | sakani-backend/models/User.js:30 | a password the bcrypt pattern (IsBcryptHash) accepts is 60 UTF-16 code units long, between 32 and 60 characters, and starts with '$2a$', '$2b$' or '$2y$' |
| UserModel.AstralPasswordLooksHashed | sakani-backend/models/User.js:30 | a 59-character password, '$2a$' then 54 letters and one astral-plane character, passes the bcrypt pattern |
| UserModel.PreSave | sakani-backend/models/User.js:25-39 | only the password may change; an unmodified or already bcrypt-shaped password is kept; any other modified password is replaced by its hash |
| UserModel.PreSaveNeverHashesTwice | sakani-backend/models/User.js:29-33 | when the hash is bcrypt-shaped, saving again never hashes the stored hash a second time |
| AuthController.RegisterUser | sakani-backend/controllers/authController.js:15-91 | 400 iff the registration checks reject, an existing email first; a new email with a valid role and interests, a truthy name and password and a non-empty email gives 201; the created user is appended with the request's email, name, phone, address, age, photo, no documents, status 'Available', the parsed non-empty interests for a student and none for an owner, and the password hashed unless already bcrypt-shaped; only 201 changes the store, and unique emails stay unique |
| AuthController.RegisterRejection | sakani-backend/controllers/authController.js:24-56 | no rejection iff the email is new, the role is 'Student' or 'Room Owner', a student sends a non-empty JSON array of interests and an owner sends none; an existing email is reported first, then an invalid role |
| AuthController.AdminCannotSelfRegister | sakani-backend/controllers/authController.js:29-32 | a request for the 'Admin' role is refused with 400 and changes nothing |
| AuthController.ForgotPassword | sakani-backend/controllers/authController.js:134-156 | an unknown email answers 404 with no change; otherwise only that user changes, storing the code and an expiry of now + 600000 ms, and the status is 200 if the mail went out, 500 if not (the code stays stored) |
| AuthController.FindResetMatch | sakani-backend/controllers/authController.js:164-168 | the index found matches email and code with an expiry strictly later than now; none found means no user matches |
| AuthController.ResetPasswordConfirmation | sakani-backend/controllers/authController.js:158-180 | a code that does not parse as a number answers 500; otherwise 200 iff some user matches email and code with an unexpired code, else 400 |
| AuthController.ResetPassword | sakani-backend/controllers/authController.js:182-217 | an unparsable code answers 500; no match or differing passwords answer 400; every non-200 leaves the users unchanged; a match with equal passwords answers 200, clears that user's code and expiry, changes no other field and no other user and, when the hash is bcrypt-shaped, stores exactly that hash of the new password |
| AuthController.ResetCodeWindow | sakani-backend/controllers/authController.js:134-180 | after forgotPassword at time now, the code confirms at time later iff later < now + 600000 |
| AuthController.ResetCodeSingleUse | sakani-backend/controllers/authController.js:185-206 | once resetPassword succeeded, the same request is refused |
| AuthController.AssignRoommate | sakani-backend/controllers/authController.js:359-382 | 404 with no change iff either user is missing; otherwise both become 'Matched', each pointing at the other, and no other user changes |
| AuthController.AssignRoommateSymmetric | sakani-backend/controllers/authController.js:370-373 | swapping the two ids gives the same outcome |
| AuthController.ChattedWith | sakani-backend/controllers/authController.js:442-478 | each entry is the projection (id, name, photo, role) of a stored user who appears opposite the user in some message, with hasUnreadMessages iff an unread message exists between the two in either direction; every such stored user is listed; there are exactly as many entries as such users, and with unique stored ids no id is listed twice |
| AuthController.ChattedWithIgnoresDeletedFor | sakani-backend/controllers/authController.js:446-448 | soft-deleting a conversation changes neither the partner list nor any unread flag |
| RoommateController.AssignRoommateToUser | sakani-backend/controllers/roommateController.js:14-36 | unknown roommate: 404, no change; already 'Matched': 400, no change; otherwise only the roommate becomes 'Matched' with matchedWith the user |
| RoommateController.AssignRoommateToUserOnce | sakani-backend/controllers/roommateController.js:24-26 | after a successful assignment, assigning the same roommate again is refused whoever asks |
| RoommateController.AssignRoommateToUserIsOneSided | sakani-backend/controllers/roommateController.js:28-30 | the user the roommate is matched with is left unchanged |
| RoommateController.UpdateRoommateStatus | sakani-backend/controllers/roommateController.js:39-58 | 404 iff the roommate is unknown; otherwise the given status is written (an absent one leaves it), 'Available' clears the partner, nothing else changes |
| RoommateController.UpdateRoommateStatusSkipsValidation | sakani-backend/controllers/roommateController.js:44-48 | a status outside the schema enum is stored and the record leaves the schema |
| RoommateController.UnmatchReopens | sakani-backend/controllers/roommateController.js:24-48 | after setting 'Available', the roommate can be assigned again |
| Reservations.CreateReservation | sakani-backend/controllers/reservationController.js:7-42 | in order: no room id 400, unknown room 404, no caller 401, nothing saved in each case; 201 iff those guards pass and the business id and room type are present (else 500); a created reservation belongs to the caller with status 'Pending' |
| Reservations.CreateReservationListed | sakani-backend/controllers/reservationController.js:7-62 | a created reservation appears in the caller's listing, which gains exactly that one entry |
| Reservations.GetReservations | sakani-backend/controllers/reservationController.js:45-62 | 401 without a caller; otherwise exactly the caller's reservations, each as often as stored, newest first |
| Reservations.CeilDiv | sakani-backend/controllers/reservationController.js:111 | the page count covers the total and no page beyond the count is needed |
| Reservations.Page | sakani-backend/controllers/reservationController.js:101-102 | at most limit entries, the i-th being the (skip+i)-th of the sorted result; empty when skip reaches the end |
| Reservations.GetAllReservations | sakani-backend/controllers/reservationController.js:67-117 | page 0 fails with 500; otherwise currentPage is the page, total counts every match, totalPages is the ceiling of total/limit and the page holds at most limit entries |
| Reservations.GetAllReservationsContents | sakani-backend/controllers/reservationController.js:76-105 | every reservation on a page is stored and matches the status and room-type filters and the owner scope; the page is newest first; total is the number of matches |
| Reservations.GetAllReservationsOwnerScope | sakani-backend/controllers/reservationController.js:88-95 | a room owner sees only reservations of rooms they own |
| Reservations.PageOfIndex | sakani-backend/controllers/reservationController.js:74-111 | when the matches' creation times are distinct (so newest-first is the only order Mongo can return), the match at position (page-1)*limit+i is entry i of that page, and the page is within totalPages: pagination loses and repeats nothing |
| Reservations.PageBeyondLastIsEmpty | sakani-backend/controllers/reservationController.js:74-111 | a page past totalPages is empty |
| Reservations.UpdateReservationStatus | sakani-backend/controllers/reservationController.js:120-188 | a status outside Pending/Approved/Rejected: 400, no change; unknown id: 404, no change; otherwise the status is written, and a missing user still answers 404 after the write; otherwise a notification for the user is saved and 200 |
| Reservations.UpdateReservationStatusIgnoresDeviceToken | sakani-backend/controllers/reservationController.js:151-180 | the outcome, the saved notification included, does not depend on the user's device token |
| Reservations.CancelReservation | sakani-backend/controllers/reservationController.js:220-239 | unknown id: 404, no change; otherwise only that reservation becomes 'Canceled' |
| Reservations.CanceledOnlyByCancel | sakani-backend/controllers/reservationController.js:125-128 | the status update refuses 'Canceled', so only cancellation can write it |
| Reservations.DeleteReservation | sakani-backend/controllers/reservationController.js:192-218 | unknown id: 404; otherwise exactly one reservation with that id is removed and every reservation with another id stays |
| Reservations.DeleteReservationUnlists | sakani-backend/controllers/reservationController.js:45-218 | after a deletion each caller's listing loses exactly the removed reservation if it was theirs, and nothing otherwise |
| Notifications.GetNotifications | sakani-backend/controllers/notificationController.js:41-55 | exactly the notifications addressed to the user or general, each as often as stored, newest first |
| Notifications.GetUnreadNotifications | sakani-backend/controllers/notificationController.js:58-71 | exactly the unread notifications addressed to the user, newest first; general ones addressed to no one are excluded |
| Notifications.NewNotificationListedFirst | sakani-backend/controllers/notificationController.js:41-71 | a notification created now for a user (unread, not general) heads both that user's full and unread listings when every stored one is older |
| Notifications.UnreadIsSubsetOfAll | sakani-backend/controllers/notificationController.js:44-65 | every unread notification listed is also in the full listing |
| Notifications.MarkNotificationAsRead | sakani-backend/controllers/notificationController.js:76-93 | 404 iff the id is unknown; otherwise only that notification becomes read |
| Notifications.MarkNotificationAsReadIdempotent | sakani-backend/controllers/notificationController.js:80-84 | marking twice is marking once |
| Notifications.MarkedLeavesUnread | sakani-backend/controllers/notificationController.js:62-84 | with unique ids, a marked notification is in no unread listing |
| Rooms.CreateRoom | sakani-backend/controllers/roomController.js:112-148 | 201 iff every field is truthy, otherwise 400 with no change; the new room carries the request's fields, the caller as owner, not featured, no visits |
| Rooms.CreateRoomTruthiness | sakani-backend/controllers/roomController.js:121-123 | latitude, longitude or beds of 0 is rejected, while an empty image list passes |
| Rooms.CreateRoomIgnoresRole | sakani-backend/controllers/roomController.js:135 | the outcome never depends on the caller's role |
| Rooms.GetAllRooms | sakani-backend/controllers/roomController.js:16-31 | with a truthy owner, exactly that owner's rooms, each as often as stored; otherwise all rooms |
| Rooms.GetFeaturedRooms | sakani-backend/controllers/roomController.js:151-159 | exactly the featured rooms, each as often as stored |
| Rooms.GetMostVisitedRooms | sakani-backend/controllers/roomController.js:162-170 | exactly the rooms with more than 70 visits, each as often as stored, most visited first |
| Rooms.UpdateRoomAvailability | sakani-backend/controllers/roomController.js:187-206 | 404 iff the id is unknown; otherwise only that room becomes 'Fully Booked' |
| Rooms.UpdateRoomAvailabilityIdempotent | sakani-backend/controllers/roomController.js:192-196 | booking a room out twice is the same as once |
| Stats.GetUserStats | sakani-backend/controllers/statsController.js:7-34 | each count is the number of users with that status or role; matched + available and students + owners + admins never exceed the total |
| Stats.UserStatsPartition | sakani-backend/controllers/statsController.js:9-14 | when every user satisfies the schema, both sums equal the total |
| Stats.AddToGroups | sakani-backend/controllers/statsController.js:42-44 | counting one more room of a type adds one to that type's bucket only, keeping buckets distinct and positive |
| Stats.GroupByType | sakani-backend/controllers/statsController.js:42-44 | one positive bucket per distinct room type, counts equal to the rooms of each type and summing to the number of rooms |
| Stats.GetRoomStats | sakani-backend/controllers/statsController.js:37-62 | available and occupied count the exact strings 'Available' and 'Fully Booked' and never exceed the total; the type buckets are distinct, count each type and sum to the total |
| Stats.GetReservationStats | sakani-backend/controllers/statsController.js:65-88 | pending, confirmed ('Approved') and canceled count their statuses and together never exceed the total |
| Stats.RejectedInNoBucket | sakani-backend/controllers/statsController.js:67-70 | when every status is one the handlers write, the three buckets miss exactly the 'Rejected' reservations |
| Documents.UploadDocument | sakani-backend/routes/documentRoutes.js:18-45 | 201 iff a file arrives with non-empty filename, path and mimetype, else 500 with nothing created; on 201 a document of the caller with the file's fields and the description defaulted to 'Uploaded Document', its id appended to the caller's list |
| Documents.PushDocument | sakani-backend/routes/documentRoutes.js:32-36 | the caller's list gains the new id at its end; no other user changes, and an unknown caller changes nothing |
| Documents.UploadKeepsConsistent | sakani-backend/routes/documentRoutes.js:18-45 | an upload under a fresh id keeps document ids unique and the documents and the users' lists consistent |
| Documents.DeleteDocument | sakani-backend/routes/documentRoutes.js:68-102 | unknown document 404 and non-owner 403, both with no change; the owner's delete removes the record and the id from their list |
| Documents.DeleteKeepsConsistent | sakani-backend/routes/documentRoutes.js:68-102 | with unique ids, a deletion keeps the documents and the users' lists consistent |
| Documents.PullDocument | sakani-backend/routes/documentRoutes.js:92 | only the caller's list changes: every copy of the deleted id goes and each other id stays exactly as often as before |
| Sorting.SortBy | sakani-backend/controllers/chatController.js:38 | `.sort()` on a key: the result is ordered by the key and is a permutation of the input |
| Sorting.SortSortedIsIdentity | sakani-backend/controllers/chatController.js:38 | sorting a sequence already in strictly increasing key order changes nothing |

## Left out

- Socket library behaviour (room membership, delivery, connection lifecycle) and the `disconnect` and `error` handlers: these are library concurrency and logging. Emits are an output list.
- Sort ties: Mongo guarantees no order among equal keys, and each query may order them differently. The model sorts stably. Its contracts on listings promise only order and permutation; the two lemmas that fix positions, `Reservations.PageOfIndex` and `Sorting.SortSortedIsIdentity`, require distinct keys.
- ObjectId casting: ids are strings. A malformed id that would make Mongoose throw (500) is treated as an unknown id.
- Mongoose save-time validation of the fields a handler does not touch is not modelled. For example, a `save()` after a forgotten-password request does not re-check the stored role.
- JSON number casting: `latitude`, `longitude` and `beds` are numbers in the request. A string that fails to cast (500) is not modelled.
- Reservations.GetAllReservations: `page` and `limit` are natural numbers with `limit > 0`, so the string coercion and the `limit = 0` case of the query string are not modelled.
- `$regex` searches are not modelled: the `search` parameter of `getAllReservations`, `getRReservations`, `searchRooms` and `searchRoomss`.
- `populate` and `select` projections are not modelled, except that `getMessages` drops `deletedFor` (`MessageView`).
- Thin handlers that only find, update or delete by id are not modelled: `getAllRoommates`, `getRooms`, `getRoomById`, `updateRoom`, `deleteRoom` and `getRoomsByOwner`.
- The user-administration handlers outside the chat and reset flows are not part of this model: `loginUser`, `changePassword`, `addStudent`, `editStudent`, `getAllStudents`, `getUserDetails`, `getAllRoomOwners`, `updateRoomOwner` and `deleteRoomOwner`.
- `resetPasswordd` is left out. It compares a stored number to a request value with `!==`, so it refuses every code.
- jwt tokens, bcrypt `compare` and salt generation are left out. bcrypt `hash` is a function parameter.
- The reset e-mail is left out. Whether it was sent is a parameter of `ForgotPassword`.
- Firebase push is left out: `sendNotification`, `subscribeToGeneralTopic` and the device send in `updateReservationStatus`. A failed push never changes the outcome there.
- Filesystem work is left out: `mkdirSync`, `existsSync` and `unlink`.
- The second `/delete/:id` route in documentRoutes.js is left out. It is registered after the first one for the same path and never runs.
- The document `/list` route is left out: it is a populate of the caller's list.
- Upload.Extname follows Node's `path.extname` for plain file names. It does not strip a trailing '/'.
- Upload.ToLower lowers only ASCII letters. No other character lowers to a letter of an allowed extension, so the filter's decision is the same.
- Reservations.DeleteReservation removes the first reservation with the business id. Which one Mongo's `deleteOne` removes when several share it is not specified.
- AuthController.ChattedWith: the partner set is stated through the stored users, not through the ids alone. An id with no stored user is not listed, as `User.find` returns nothing for it.
- Consistency between queries: each handler reads one unchanging snapshot. The source issues separate awaited queries (statsController.js:9-14, 39-44 and 67-70; reservationController.js:98-105; authController.js:446-470), so a write between them can break `matched + available <= total` or the relation between `total` and a page's contents.
- RoommateController.UpdateRoommateStatus assumes Mongoose 6 or later, which drops the `matchedWith: undefined` key from an update. Earlier versions kept the key unless the `omitUndefined` option was set, so the update could clear the partner for any status.
- ChatController.DeleteChatRequest: a database failure (500) is not modelled. A missing body id is sent as null, which matches no stored message.
- AuthController.RegisterUser: the request's `age` is already a number or absent. A value that fails Mongoose's number cast, making `save()` fail with 500, is not modelled, and neither are the types of the interest items.

=== FILE: auth_controller.dfy ===
/** The modelled handlers of controllers/authController.js: registration
    checks, the reset-code state machine (with the clock as a parameter),
    the symmetric roommate assignment and the list of conversation partners. */
module AuthController {
  import opened Base
  import opened UserModel
  import opened ChatModel
  import ChatController

  /** The users collection after a handler, and the HTTP status it answered. */
  datatype AuthReply = AuthReply(users: seq<User>, status: int)

  /** What `JSON.parse(req.body.interests)` produced. */
  datatype ParsedInterests = NotJson | JsonArray(items: seq<string>) | JsonNonArray

  /** The fields of a registration request; `photo` is multer's file path. */
  datatype RegisterRequest = RegisterRequest(
    fullName: Option<string>,
    email: string,
    password: Option<string>,
    phone: Option<string>,
    address: Option<string>,
    age: Option<int>,
    role: Option<string>,
    interests: Option<string>,
    photo: Option<string>)

  /** The checks of `registerUser` that answer 400, in the order they run;
      `None` when the request passes them all. */
  function RegisterRejection(users: seq<User>, req: RegisterRequest, parse: string -> ParsedInterests): (r: Option<string>)
    ensures r.None? <==>
      && FindByEmail(users, req.email).None?
      && (req.role == Some(Student) || req.role == Some(RoomOwner))
      && (req.role == Some(Student) ==>
            Truthy(req.interests) && parse(req.interests.value).JsonArray? && |parse(req.interests.value).items| > 0)
      && (req.role == Some(RoomOwner) ==> !Truthy(req.interests))
    ensures FindByEmail(users, req.email).Some? ==> r == Some("User already exists")
    ensures FindByEmail(users, req.email).None? && !(req.role == Some(Student) || req.role == Some(RoomOwner)) ==>
      r == Some("Invalid role provided")
  {
    if FindByEmail(users, req.email).Some? then Some("User already exists")
    else if !(req.role == Some(Student) || req.role == Some(RoomOwner)) then Some("Invalid role provided")
    else if req.role == Some(Student) && !Truthy(req.interests) then Some("Interests are required for students")
    else if req.role == Some(Student) && parse(req.interests.value).NotJson? then Some("Invalid interests format")
    else if req.role == Some(Student) && !(parse(req.interests.value).JsonArray? && |parse(req.interests.value).items| > 0)
    then Some("Interests are required for students")
    else if req.role == Some(RoomOwner) && Truthy(req.interests) then Some("Room owners should not provide interests")
    else None
  }

  /** `registerUser`. `newId` is the fresh ObjectId, `parse` is `JSON.parse`,
      `hash` is bcrypt; a record the schema refuses (missing name, password or
      email) makes `User.create` throw and the handler answer 500. */
  function RegisterUser(users: seq<User>, req: RegisterRequest, newId: Id,
                        parse: string -> ParsedInterests, hash: string -> string): (r: AuthReply)
    ensures r.status == 201 || r.status == 400 || r.status == 500
    ensures r.status != 201 ==> r.users == users
    ensures FindByEmail(users, req.email).Some? ==> r.status == 400
    ensures r.status == 400 <==> RegisterRejection(users, req, parse).Some?
    ensures RegisterRejection(users, req, parse).None? && Truthy(req.fullName) && Truthy(req.password) && req.email != ""
            ==> r.status == 201
    ensures r.status == 201 ==>
      && |r.users| == |users| + 1 && r.users[..|users|] == users
      && Truthy(req.fullName) && Truthy(req.password) && req.email != ""
      && (var u := r.users[|users|];
          && u.id == newId && u.email == req.email && u.fullName == req.fullName.value
          && u.phone == req.phone && u.address == req.address && u.age == req.age && u.photo == req.photo
          && (u.role == Student || u.role == RoomOwner) && Some(u.role) == req.role
          && u.status == Available && u.matchedWith.None? && u.documents == []
          && (u.role == Student ==>
                && req.interests.Some? && u.interests == Some(parse(req.interests.value).items)
                && |u.interests.value| > 0)
          && (u.role == RoomOwner ==> u.interests.None? && !Truthy(req.interests))
          && (IsBcryptHash(req.password.value) ==> u.password == req.password.value)
          && (!IsBcryptHash(req.password.value) ==> u.password == hash(req.password.value)))
    ensures EmailsUnique(users) ==> EmailsUnique(r.users)
  {
    if RegisterRejection(users, req, parse).Some? then AuthReply(users, 400)
    else if !Truthy(req.fullName) || !Truthy(req.password) || req.email == "" then AuthReply(users, 500)
    else
      var interests := if req.role == Some(Student) then Some(parse(req.interests.value).items) else None;
      var u := NewUser(newId, req.fullName.value, req.email, req.password.value, req.phone, req.address,
                       req.age, interests, req.photo, req.role.value);
      AuthReply(users + [PreSave(u, true, hash)], 201)
  }

  /** Only students and room owners can register; an administrator account
      can never be created through this handler. */
  lemma AdminCannotSelfRegister(users: seq<User>, req: RegisterRequest, newId: Id,
                                parse: string -> ParsedInterests, hash: string -> string)
    requires req.role == Some(Admin)
    ensures RegisterUser(users, req, newId, parse, hash) == AuthReply(users, 400)
  {
  }

  /** Lifetime of a reset code: ten minutes, in milliseconds. */
  const ResetCodeLifetime := 600000

  /** `forgotPassword`: stores `code` (drawn from 100000..999999) with an
      expiry ten minutes after `now`. The reply is 500 when the mail cannot be
      sent, but the code is stored by then. */
  function ForgotPassword(users: seq<User>, email: string, now: Time, code: int, mailSent: bool): (r: AuthReply)
    requires 100000 <= code <= 999999
    ensures FindByEmail(users, email).None? ==> r == AuthReply(users, 404)
    ensures FindByEmail(users, email).Some? ==>
      var i := FindByEmail(users, email).value;
      && |r.users| == |users|
      && r.users[i] == users[i].(resetCode := Some(code), resetCodeExpiry := Some(now + ResetCodeLifetime))
      && (forall j :: 0 <= j < |users| && j != i ==> r.users[j] == users[j])
      && r.status == (if mailSent then 200 else 500)
  {
    match FindByEmail(users, email)
    case None => AuthReply(users, 404)
    case Some(i) =>
      var u := users[i].(resetCode := Some(code), resetCodeExpiry := Some(now + ResetCodeLifetime));
      AuthReply(users[i := u], if mailSent then 200 else 500)
  }

  /** The query of both confirmation handlers: same email, same code, expiry
      strictly later. `code` is `parseInt` of the request's code; `None` stands
      for NaN, which Mongoose refuses to cast to the Number path, so the query
      throws and both handlers answer 500 before any match is looked for. */
  predicate CodeMatches(u: User, email: string, code: Option<int>, now: Time) {
    && u.email == email
    && code.Some? && u.resetCode == code
    && u.resetCodeExpiry.Some? && u.resetCodeExpiry.value > now
  }

  function FindResetMatch(users: seq<User>, email: string, code: Option<int>, now: Time): (r: Option<nat>)
    ensures r.Some? ==> r.value < |users| && CodeMatches(users[r.value], email, code, now)
    ensures r.Some? ==> forall j :: 0 <= j < r.value ==> !CodeMatches(users[j], email, code, now)
    ensures r.None? ==> forall j :: 0 <= j < |users| ==> !CodeMatches(users[j], email, code, now)
  {
    FindFirst(users, (u: User) => CodeMatches(u, email, code, now))
  }

  /** `resetPasswordConfirmation`: 500 for a code that is not a number, 200
      exactly when some user matches, 400 otherwise. */
  function ResetPasswordConfirmation(users: seq<User>, email: string, code: Option<int>, now: Time): (status: int)
    ensures status == 500 <==> code.None?
    ensures status == 200 <==> exists j :: 0 <= j < |users| && CodeMatches(users[j], email, code, now)
    ensures status == 400 <==> code.Some? && forall j :: 0 <= j < |users| ==> !CodeMatches(users[j], email, code, now)
  {
    if code.None? then 500
    else if FindResetMatch(users, email, code, now).Some? then 200 else 400
  }

  /** `resetPassword`: on a matching code and equal passwords the bcrypt hash
      of the new password replaces the old one (the pre-save hook sees a hash
      and leaves it) and the code and its expiry are cleared. A code that is
      not a number makes the lookup throw (500); a missing new password makes
      bcrypt throw (500). */
  function ResetPassword(users: seq<User>, email: string, code: Option<int>, newPassword: Option<string>,
                         confirmPassword: Option<string>, now: Time, hash: string -> string): (r: AuthReply)
    ensures r.status != 200 ==> r.users == users
    ensures code.None? ==> r.status == 500
    ensures code.Some? && FindResetMatch(users, email, code, now).None? ==> r.status == 400
    ensures FindResetMatch(users, email, code, now).Some? && newPassword != confirmPassword ==> r.status == 400
    ensures FindResetMatch(users, email, code, now).Some? && newPassword == confirmPassword && newPassword.Some?
            ==> r.status == 200
    ensures r.status == 200 ==>
      && newPassword == confirmPassword && newPassword.Some?
      && FindResetMatch(users, email, code, now).Some?
      && (var i := FindResetMatch(users, email, code, now).value;
          && |r.users| == |users|
          && r.users[i] == users[i].(password := r.users[i].password, resetCode := None, resetCodeExpiry := None)
          && (IsBcryptHash(hash(newPassword.value)) ==> r.users[i].password == hash(newPassword.value))
          && (!IsBcryptHash(hash(newPassword.value)) ==> r.users[i].password == hash(hash(newPassword.value)))
          && (forall j :: 0 <= j < |users| && j != i ==> r.users[j] == users[j]))
  {
    if code.None? then AuthReply(users, 500)
    else match FindResetMatch(users, email, code, now)
    case None => AuthReply(users, 400)
    case Some(i) =>
      if newPassword != confirmPassword then AuthReply(users, 400)
      else if newPassword.None? then AuthReply(users, 500)
      else
        var u := users[i].(password := hash(newPassword.value), resetCode := None, resetCodeExpiry := None);
        AuthReply(users[i := PreSave(u, true, hash)], 200)
  }

  /** The state machine end to end: after `forgotPassword` the stored code
      confirms until, and not at or after, ten minutes have passed. */
  lemma ResetCodeWindow(users: seq<User>, email: string, now: Time, code: int, mailSent: bool, later: Time)
    requires 100000 <= code <= 999999
    requires EmailsUnique(users)
    requires FindByEmail(users, email).Some?
    requires now <= later
    ensures var after := ForgotPassword(users, email, now, code, mailSent).users;
      ResetPasswordConfirmation(after, email, Some(code), later) == 200 <==> later < now + ResetCodeLifetime
  {
    var i := FindByEmail(users, email).value;
    var after := ForgotPassword(users, email, now, code, mailSent).users;
    assert forall j :: 0 <= j < |after| && j != i ==> after[j].email != email;
  }

  /** A code is single-use: once `resetPassword` succeeded, the same request
      is refused. */
  lemma ResetCodeSingleUse(users: seq<User>, email: string, code: Option<int>, newPassword: Option<string>,
                           now: Time, hash: string -> string)
    requires EmailsUnique(users)
    requires ResetPassword(users, email, code, newPassword, newPassword, now, hash).status == 200
    ensures var after := ResetPassword(users, email, code, newPassword, newPassword, now, hash).users;
      ResetPassword(after, email, code, newPassword, newPassword, now, hash).status == 400
  {
    var i := FindResetMatch(users, email, code, now).value;
    var after := ResetPassword(users, email, code, newPassword, newPassword, now, hash).users;
    forall j | 0 <= j < |after| ensures !CodeMatches(after[j], email, code, now) {
      if j != i {
        assert after[j] == users[j];
        assert users[j].email != users[i].email;
      }
    }
  }

  /** `assignRoommate`: both users become 'Matched', each pointing at the other. */
  function AssignRoommate(users: seq<User>, studentId: Option<Id>, roommateId: Option<Id>): (r: AuthReply)
    ensures |r.users| == |users|
    ensures r.status == 404 <==>
      studentId.None? || roommateId.None? || FindById(users, studentId.value).None? || FindById(users, roommateId.value).None?
    ensures r.status == 404 ==> r.users == users
    ensures r.status != 404 ==>
      && r.status == 200
      && var i := FindById(users, studentId.value).value;
         var j := FindById(users, roommateId.value).value;
         && r.users[i].status == Matched && r.users[j].status == Matched
         && r.users[j].matchedWith == studentId
         && (i != j ==> r.users[i].matchedWith == roommateId)
         && (forall k :: 0 <= k < |users| && k != i && k != j ==> r.users[k] == users[k])
  {
    if studentId.None? || roommateId.None? then AuthReply(users, 404)
    else match (FindById(users, studentId.value), FindById(users, roommateId.value))
      case (Some(i), Some(j)) =>
        var step := users[i := users[i].(matchedWith := roommateId, status := Matched)];
        AuthReply(step[j := step[j].(matchedWith := studentId, status := Matched)], 200)
      case _ => AuthReply(users, 404)
  }

  /** The assignment is symmetric: swapping the two ids gives the same users. */
  lemma AssignRoommateSymmetric(users: seq<User>, a: Id, b: Id)
    requires a != b
    ensures AssignRoommate(users, Some(a), Some(b)) == AssignRoommate(users, Some(b), Some(a))
  {
  }

  /** A message sent or received by `u`. */
  predicate Involves(m: Message, u: Id) {
    m.senderId == u || m.receiverId == u
  }

  /** `x` appears opposite `userId` in one of their messages. */
  predicate IsPartner(store: seq<Message>, userId: Id, x: Id) {
    x != userId && exists i :: 0 <= i < |store| && Involves(store[i], userId)
                              && (store[i].senderId == x || store[i].receiverId == x)
  }

  /** Some unread message exists between the two, in either direction. */
  predicate HasUnread(store: seq<Message>, userId: Id, partner: Id) {
    exists i :: 0 <= i < |store| && !store[i].read && InConversation(store[i], userId, partner)
  }

  /** An entry of the partner list: the projected user plus the unread flag. */
  datatype Partner = Partner(id: Id, fullName: string, photo: Option<string>, role: string, hasUnreadMessages: bool)

  /** The entry `getUsersWhoChattedWithUser` returns for a stored user: the
      selected `_id fullName photo role` plus the unread flag. */
  function ToPartner(store: seq<Message>, userId: Id, u: User): Partner {
    Partner(u.id, u.fullName, u.photo, u.role, HasUnread(store, userId, u.id))
  }

  /** The stored users the list is about. */
  function PartnerOf(store: seq<Message>, userId: Id): User -> bool {
    (u: User) => IsPartner(store, userId, u.id)
  }

  /** `getUsersWhoChattedWithUser`: the stored users who are partners of
      `userId`, in collection order, each projected with its unread flag. */
  function ChattedWith(store: seq<Message>, users: seq<User>, userId: Id): (r: seq<Partner>)
    ensures forall j :: 0 <= j < |r| ==>
      && IsPartner(store, userId, r[j].id)
      && (r[j].hasUnreadMessages <==> HasUnread(store, userId, r[j].id))
      && r[j].id in UserIds(users)
    ensures forall j :: 0 <= j < |r| ==> r[j] in Project(store, userId, users)
    ensures forall k :: 0 <= k < |users| && IsPartner(store, userId, users[k].id) ==>
      exists j :: 0 <= j < |r| && r[j].id == users[k].id
    ensures |r| == Count(users, PartnerOf(store, userId))
    ensures UserIdsUnique(users) ==> forall j, k :: 0 <= j < k < |r| ==> r[j].id != r[k].id
  {
    var ps := Filter(users, PartnerOf(store, userId));
    var r := Project(store, userId, ps);
    PartnerEntriesAreStoredUsers(store, users, userId, ps);
    EveryPartnerListed(store, users, userId, ps);
    FilterKeepsIdsUnique(users, PartnerOf(store, userId));
    PartnersDistinct(store, userId, ps);
    r
  }

  /** Every entry projects a stored user who is a partner. */
  lemma PartnerEntriesAreStoredUsers(store: seq<Message>, users: seq<User>, userId: Id, ps: seq<User>)
    requires forall x :: x in ps ==> x in users && IsPartner(store, userId, x.id)
    ensures forall j :: 0 <= j < |ps| ==>
      && IsPartner(store, userId, Project(store, userId, ps)[j].id)
      && (Project(store, userId, ps)[j].hasUnreadMessages <==> HasUnread(store, userId, Project(store, userId, ps)[j].id))
      && Project(store, userId, ps)[j].id in UserIds(users)
    ensures forall j :: 0 <= j < |ps| ==> Project(store, userId, ps)[j] in Project(store, userId, users)
  {
    var r := Project(store, userId, ps);
    forall j | 0 <= j < |ps|
      ensures IsPartner(store, userId, r[j].id)
      ensures r[j].id in UserIds(users)
      ensures r[j] in Project(store, userId, users)
    {
      assert ps[j] in ps;
      var k :| 0 <= k < |users| && users[k] == ps[j];
      assert r[j] == Project(store, userId, users)[k];
    }
  }

  /** Every stored partner has an entry. */
  lemma EveryPartnerListed(store: seq<Message>, users: seq<User>, userId: Id, ps: seq<User>)
    requires forall x :: x in users && IsPartner(store, userId, x.id) ==> x in ps
    ensures forall k :: 0 <= k < |users| && IsPartner(store, userId, users[k].id) ==>
      exists j :: 0 <= j < |ps| && Project(store, userId, ps)[j].id == users[k].id
  {
    forall k | 0 <= k < |users| && IsPartner(store, userId, users[k].id)
      ensures exists j :: 0 <= j < |ps| && Project(store, userId, ps)[j].id == users[k].id
    {
      assert users[k] in users;
      var j :| 0 <= j < |ps| && ps[j] == users[k];
      assert Project(store, userId, ps)[j].id == users[k].id;
    }
  }

  /** Projection keeps the ids of users whose ids are unique apart. */
  lemma PartnersDistinct(store: seq<Message>, userId: Id, ps: seq<User>)
    ensures UserIdsUnique(ps) ==> forall j, k :: 0 <= j < k < |ps| ==> Project(store, userId, ps)[j].id != Project(store, userId, ps)[k].id
  {
  }

  /** The entries for the listed users, in their order. */
  function Project(store: seq<Message>, userId: Id, ps: seq<User>): (r: seq<Partner>)
    ensures |r| == |ps|
    ensures forall j :: 0 <= j < |r| ==> r[j] == ToPartner(store, userId, ps[j])
  {
    seq(|ps|, j requires 0 <= j < |ps| => ToPartner(store, userId, ps[j]))
  }

  lemma ProjectCongruent(s1: seq<Message>, s2: seq<Message>, userId: Id, ps: seq<User>)
    requires forall j :: 0 <= j < |ps| ==> HasUnread(s1, userId, ps[j].id) == HasUnread(s2, userId, ps[j].id)
    ensures Project(s1, userId, ps) == Project(s2, userId, ps)
  {
    assert forall j :: 0 <= j < |ps| ==> ToPartner(s1, userId, ps[j]) == ToPartner(s2, userId, ps[j]);
  }

  /** Filtering a collection with unique ids keeps the ids unique. */
  lemma {:induction false} FilterKeepsIdsUnique(users: seq<User>, p: User -> bool)
    ensures UserIdsUnique(users) ==> UserIdsUnique(Filter(users, p))
  {
    if |users| > 0 && UserIdsUnique(users) {
      FilterKeepsIdsUnique(users[1..], p);
      var tail := Filter(users[1..], p);
      forall x | x in tail ensures x.id != users[0].id {
        var k :| 0 <= k < |users[1..]| && users[1..][k] == x;
        assert users[k + 1] == x;
      }
    }
  }

  /** The ids of the stored users. */
  function UserIds(users: seq<User>): (ids: set<Id>)
    ensures forall k :: 0 <= k < |users| ==> users[k].id in ids
  {
    if |users| == 0 then {}
    else
      assert forall k :: 1 <= k < |users| ==> users[k] == users[1..][k - 1];
      {users[0].id} + UserIds(users[1..])
  }

  /** The list ignores soft deletion: deleting a conversation for oneself
      removes no partner and changes no unread flag. */
  lemma ChattedWithIgnoresDeletedFor(store: seq<Message>, users: seq<User>, userId: Id, a: Id, b: Id)
    ensures ChattedWith(ChatController.DeleteChat(store, a, b), users, userId) == ChattedWith(store, users, userId)
  {
    var after := ChatController.DeleteChat(store, a, b);
    assert forall i :: 0 <= i < |store| ==> View(after[i]) == View(store[i]);
    assert forall p :: IsPartner(after, userId, p) == IsPartner(store, userId, p);
    assert forall p :: HasUnread(after, userId, p) == HasUnread(store, userId, p);
    ChattedWithCongruent(store, after, users, userId);
  }

  lemma ChattedWithCongruent(s1: seq<Message>, s2: seq<Message>, users: seq<User>, userId: Id)
    requires forall p :: IsPartner(s1, userId, p) == IsPartner(s2, userId, p)
    requires forall p :: HasUnread(s1, userId, p) == HasUnread(s2, userId, p)
    ensures ChattedWith(s1, users, userId) == ChattedWith(s2, users, userId)
  {
    FilterCongruent(users, PartnerOf(s1, userId), PartnerOf(s2, userId));
    ProjectCongruent(s1, s2, userId, Filter(users, PartnerOf(s1, userId)));
  }
}

=== FILE: base.dfy ===
/** Shared vocabulary of the model: optional request fields, JavaScript
    truthiness, and the few generic sequence queries the controllers use
    (filter, first match, count). */
module Base {

  /** A request field or stored attribute that may be absent (undefined/null). */
  datatype Option<+T> = None | Some(value: T)

  /** Either a stored record or the reason the store refused it. */
  datatype Result<+R, +E> = Success(value: R) | Failure(error: E)

  /** Database identities (ObjectIds rendered as strings). */
  type Id = string

  /** Milliseconds since the epoch, as `Date.now()` returns them. */
  type Time = int

  /** JavaScript truthiness of an optional string: undefined, null and '' are falsy. */
  predicate Truthy(o: Option<string>) {
    o.Some? && o.value != ""
  }

  /** `o || d` for an optional string. */
  function OrElse(o: Option<string>, d: string): string {
    if Truthy(o) then o.value else d
  }

  predicate StartsWith(s: string, prefix: string) {
    |prefix| <= |s| && s[..|prefix|] == prefix
  }

  /** The elements of `s` that satisfy `p`, in their original order. */
  function Filter<T(!new)>(s: seq<T>, p: T -> bool): (r: seq<T>)
    ensures |r| <= |s|
    ensures forall x :: x in r <==> x in s && p(x)
    ensures forall i :: 0 <= i < |r| ==> p(r[i])
  {
    if |s| == 0 then []
    else (if p(s[0]) then [s[0]] else []) + Filter(s[1..], p)
  }

  /** Number of elements of `s` that satisfy `p`. */
  function Count<T(!new)>(s: seq<T>, p: T -> bool): (n: nat)
    ensures n <= |s|
    ensures n == |Filter(s, p)|
  {
    if |s| == 0 then 0
    else (if p(s[0]) then 1 else 0) + Count(s[1..], p)
  }

  /** Filtering keeps every element that satisfies `p` with all its copies and
      drops every other one. */
  lemma {:induction false} FilterMultiset<T(!new)>(s: seq<T>, p: T -> bool)
    ensures forall x :: multiset(Filter(s, p))[x] == if p(x) then multiset(s)[x] else 0
  {
    if |s| > 0 {
      FilterMultiset(s[1..], p);
      assert s == [s[0]] + s[1..];
    }
  }

  /** Filtering distributes over concatenation. */
  lemma {:induction false} FilterAppend<T(!new)>(a: seq<T>, b: seq<T>, p: T -> bool)
    ensures Filter(a + b, p) == Filter(a, p) + Filter(b, p)
  {
    if |a| == 0 {
      assert a + b == b;
    } else {
      assert (a + b)[0] == a[0];
      assert (a + b)[1..] == a[1..] + b;
      FilterAppend(a[1..], b, p);
    }
  }

  /** Predicates that agree on the elements of `s` filter it alike. */
  lemma {:induction false} FilterCongruent<T(!new)>(s: seq<T>, p: T -> bool, q: T -> bool)
    requires forall x :: x in s ==> p(x) == q(x)
    ensures Filter(s, p) == Filter(s, q)
  {
    if |s| > 0 {
      assert forall x :: x in s[1..] ==> x in s;
      FilterCongruent(s[1..], p, q);
    }
  }

  /** Some element satisfies `p` exactly when the count is positive. */
  lemma {:induction false} CountPositive<T(!new)>(s: seq<T>, p: T -> bool)
    ensures Count(s, p) > 0 <==> exists i :: 0 <= i < |s| && p(s[i])
  {
    if |s| > 0 {
      CountPositive(s[1..], p);
      if !p(s[0]) && exists i :: 0 <= i < |s| && p(s[i]) {
        var i :| 0 <= i < |s| && p(s[i]);
        assert s[1..][i - 1] == s[i];
      }
    }
  }

  /** Removing `y` from between `a` and `b` removes it from the filtered
      sequence when it satisfies `p`, and nothing otherwise. */
  lemma FilterRemoveMiddle<T(!new)>(a: seq<T>, y: T, b: seq<T>, p: T -> bool)
    ensures multiset(Filter(a + b, p)) + (if p(y) then multiset{y} else multiset{})
         == multiset(Filter(a + [y] + b, p))
  {
    var fa, fy, fb := Filter(a, p), Filter([y], p), Filter(b, p);
    assert Filter(a + [y] + b, p) == fa + fy + fb by {
      FilterAppend(a + [y], b, p);
      FilterAppend(a, [y], p);
    }
    assert Filter(a + b, p) == fa + fb by { FilterAppend(a, b, p); }
    assert fy == if p(y) then [y] else [] by {
      assert [y][1..] == [];
    }
    assert multiset(fa + fy + fb) == multiset(fa) + multiset(fy) + multiset(fb);
  }

  /** Index of the first element of `s` that satisfies `p`, as `findOne` returns it. */
  function FindFirst<T>(s: seq<T>, p: T -> bool): (r: Option<nat>)
    ensures r.Some? ==> r.value < |s| && p(s[r.value])
    ensures r.Some? ==> forall j :: 0 <= j < r.value ==> !p(s[j])
    ensures r.None? ==> forall j :: 0 <= j < |s| ==> !p(s[j])
  {
    if |s| == 0 then None
    else if p(s[0]) then Some(0)
    else match FindFirst(s[1..], p)
      case None => None
      case Some(k) => Some(k + 1)
  }

  predicate NoDuplicates<T(==)>(s: seq<T>) {
    forall i, j :: 0 <= i < j < |s| ==> s[i] != s[j]
  }

  /** Two disjoint predicates never count more elements together than there are. */
  lemma {:induction false} CountDisjoint<T(!new)>(s: seq<T>, p: T -> bool, q: T -> bool)
    requires forall x :: x in s ==> !(p(x) && q(x))
    ensures Count(s, p) + Count(s, q) <= |s|
    ensures (forall x :: x in s ==> p(x) || q(x)) ==> Count(s, p) + Count(s, q) == |s|
  {
    if |s| > 0 {
      assert forall x :: x in s[1..] ==> x in s;
      CountDisjoint(s[1..], p, q);
    }
  }

  /** Three pairwise disjoint predicates that cover `s` count every element exactly once. */
  lemma {:induction false} CountPartition3<T(!new)>(s: seq<T>, p: T -> bool, q: T -> bool, r: T -> bool)
    requires forall x :: x in s ==> !(p(x) && q(x)) && !(p(x) && r(x)) && !(q(x) && r(x))
    ensures Count(s, p) + Count(s, q) + Count(s, r) <= |s|
    ensures (forall x :: x in s ==> p(x) || q(x) || r(x)) ==> Count(s, p) + Count(s, q) + Count(s, r) == |s|
  {
    if |s| > 0 {
      assert forall x :: x in s[1..] ==> x in s;
      CountPartition3(s[1..], p, q, r);
    }
  }

  /** Four pairwise disjoint predicates that cover every element split the count. */
  lemma {:induction false} CountPartition4<T(!new)>(s: seq<T>, p: T -> bool, q: T -> bool, r: T -> bool, t: T -> bool)
    requires forall x :: x in s ==> !(p(x) && q(x)) && !(p(x) && r(x)) && !(p(x) && t(x))
    requires forall x :: x in s ==> !(q(x) && r(x)) && !(q(x) && t(x)) && !(r(x) && t(x))
    requires forall x :: x in s ==> p(x) || q(x) || r(x) || t(x)
    ensures Count(s, p) + Count(s, q) + Count(s, r) + Count(s, t) == |s|
  {
    if |s| > 0 {
      assert forall x :: x in s[1..] ==> x in s;
      CountPartition4(s[1..], p, q, r, t);
    }
  }
}

=== FILE: chat_controller.dfy ===
/** controllers/chatController.js over an in-memory message store: the
    ingestion function shared with the socket handlers, the per-user history
    query, per-user soft deletion, directional mark-as-read and the REST
    attachment upload. */
module ChatController {
  import opened Base
  import opened Sorting
  import opened ChatModel
  import Upload

  /** The store after a save attempt, and the saved record or the reason it was refused. */
  datatype Saved = Saved(store: seq<Message>, outcome: Result<Message, SaveError>)

  /** A REST reply: the store afterwards, the HTTP status, the record created (if any). */
  datatype Reply = Reply(store: seq<Message>, status: int, created: Option<Message>)

  /** The object `saveMessage` builds: the caller's fields, with `fileUrl` and
      `fileType` defaulted when falsy and `read`/`deletedFor` forced. The
      defaults never make a record unsavable: the file type passes the enum
      exactly when the caller's did or the caller gave none. */
  function Ingest(data: ChatFields): (r: ChatFields)
    ensures r.senderId == data.senderId && r.receiverId == data.receiverId
    ensures r.message == data.message && r.timestamp == data.timestamp
    ensures r.read == Some(false) && r.deletedFor == Some([])
    ensures Truthy(data.fileUrl) ==> r.fileUrl == data.fileUrl
    ensures !Truthy(data.fileUrl) ==> r.fileUrl == Some("")
    ensures Truthy(r.fileType)
    ensures Truthy(data.fileType) ==> r.fileType == data.fileType
    ensures ParseFileType(r.fileType.value).Some? <==>
      !Truthy(data.fileType) || ParseFileType(data.fileType.value).Some?
  {
    data.(fileUrl := Some(OrElse(data.fileUrl, "")),
          fileType := Some(OrElse(data.fileType, "none")),
          read := Some(false),
          deletedFor := Some([]))
  }

  /** `saveMessage`: normalise, then `save()`; a refused save is rethrown and
      leaves the store as it was. */
  function SaveMessage(store: seq<Message>, data: ChatFields, now: Time): (r: Saved)
    ensures r.outcome.Success? <==>
      && Truthy(data.senderId) && Truthy(data.receiverId)
      && (!Truthy(data.fileType) || ParseFileType(data.fileType.value).Some?)
    ensures r.outcome.Failure? ==> r.store == store
    ensures r.outcome.Success? ==>
      var m := r.outcome.value;
      && r.store == store + [m]
      && m.senderId == data.senderId.value
      && m.receiverId == data.receiverId.value
      && m.message == (if data.message.Some? then data.message.value else "")
      && m.fileUrl == OrElse(data.fileUrl, "")
      && (Truthy(data.fileType) ==> FileTypeName(m.fileType) == data.fileType.value)
      && (!Truthy(data.fileType) ==> m.fileType == NoFile)
      && m.timestamp == (if data.timestamp.Some? then data.timestamp.value else now)
      && !m.read
      && m.deletedFor == []
  {
    match Create(Ingest(data), now)
    case Success(m) => Saved(store + [m], Success(m))
    case Failure(e) => Saved(store, Failure(e))
  }

  /** Whatever `read` and `deletedFor` the caller supplies, the saved record is the same. */
  lemma SaveMessageIgnoresReadAndDeletedFor(store: seq<Message>, data: ChatFields, now: Time,
                                            read: Option<bool>, deletedFor: Option<seq<Id>>)
    ensures SaveMessage(store, data.(read := read, deletedFor := deletedFor), now) == SaveMessage(store, data, now)
  {
  }

  /** The history query's filter: the pair in either direction, minus the
      messages the viewer has deleted for themself. */
  predicate Visible(m: Message, viewer: Id, other: Id) {
    InConversation(m, viewer, other) && viewer !in m.deletedFor
  }

  /** The stored messages `viewer` sees, in their conversation with `other`, as `x`. */
  function ShowsAs(viewer: Id, other: Id, x: MessageView): Message -> bool {
    (m: Message) => Visible(m, viewer, other) && View(m) == x
  }

  /** The messages `viewer` may see of their conversation with `other`, in
      store order and without `deletedFor`: each view occurs as often as
      there are visible stored messages that show as it. */
  function History(s: seq<Message>, viewer: Id, other: Id): (r: seq<MessageView>)
    ensures |r| <= |s|
    ensures forall x :: x in r <==> exists i :: 0 <= i < |s| && Visible(s[i], viewer, other) && View(s[i]) == x
    ensures forall x :: multiset(r)[x] == Count(s, ShowsAs(viewer, other, x))
  {
    if |s| == 0 then []
    else
      var rest := History(s[1..], viewer, other);
      var head := if Visible(s[0], viewer, other) then [View(s[0])] else [];
      var r := head + rest;
      assert forall x :: multiset(r)[x] == Count(s, ShowsAs(viewer, other, x)) by {
        forall x ensures multiset(r)[x] == Count(s, ShowsAs(viewer, other, x)) {
          assert multiset(r) == multiset(head) + multiset(rest);
        }
      }
      assert forall x :: x in r <==> exists i :: 0 <= i < |s| && Visible(s[i], viewer, other) && View(s[i]) == x by {
        forall x ensures x in r <==> exists i :: 0 <= i < |s| && Visible(s[i], viewer, other) && View(s[i]) == x {
          CountPositive(s, ShowsAs(viewer, other, x));
        }
      }
      r
  }

  /** `getMessages(userId, roommateId)`: the visible messages of the pair,
      oldest first. */
  function GetMessages(store: seq<Message>, userId: Id, roommateId: Id): (r: seq<MessageView>)
    ensures SortedBy(r, ViewTime)
    ensures |r| == |History(store, userId, roommateId)|
    ensures forall x :: x in r <==>
      exists i :: 0 <= i < |store| && Visible(store[i], userId, roommateId) && View(store[i]) == x
    ensures forall x :: multiset(r)[x] == Count(store, ShowsAs(userId, roommateId, x))
  {
    SortBy(History(store, userId, roommateId), ViewTime)
  }

  /** `$addToSet: { deletedFor: u }` on one record. */
  function HideFor(m: Message, u: Id): Message {
    if u in m.deletedFor then m else m.(deletedFor := m.deletedFor + [u])
  }

  /** `deleteChat(userId, roommateId)`: every message of the pair, in both
      directions, gets `userId` added to its `deletedFor` set. */
  function DeleteChat(store: seq<Message>, userId: Id, roommateId: Id): (r: seq<Message>)
    ensures |r| == |store|
    ensures forall i :: 0 <= i < |r| ==> View(r[i]) == View(store[i])
    ensures forall i :: 0 <= i < |r| ==> r[i] == store[i].(deletedFor := r[i].deletedFor)
    ensures forall i, w :: 0 <= i < |r| ==>
      (w in r[i].deletedFor <==> w in store[i].deletedFor || (w == userId && InConversation(store[i], userId, roommateId)))
    ensures forall i :: 0 <= i < |r| && NoDuplicates(store[i].deletedFor) ==> NoDuplicates(r[i].deletedFor)
  {
    if |store| == 0 then []
    else
      var m := store[0];
      [if InConversation(m, userId, roommateId) then HideFor(m, userId) else m]
        + DeleteChat(store[1..], userId, roommateId)
  }

  /** Deleting a conversation twice is the same as deleting it once. */
  lemma {:induction false} DeleteChatIdempotent(store: seq<Message>, userId: Id, roommateId: Id)
    ensures DeleteChat(DeleteChat(store, userId, roommateId), userId, roommateId) == DeleteChat(store, userId, roommateId)
  {
    if |store| > 0 {
      var once := DeleteChat(store, userId, roommateId);
      assert once[1..] == DeleteChat(store[1..], userId, roommateId);
      DeleteChatIdempotent(store[1..], userId, roommateId);
    }
  }

  lemma {:induction false} DeleteChatEmptiesHistory(store: seq<Message>, userId: Id, roommateId: Id)
    ensures History(DeleteChat(store, userId, roommateId), userId, roommateId) == []
  {
    if |store| > 0 {
      var after := DeleteChat(store, userId, roommateId);
      assert after[1..] == DeleteChat(store[1..], userId, roommateId);
      DeleteChatEmptiesHistory(store[1..], userId, roommateId);
    }
  }

  lemma {:induction false} DeleteChatKeepsOtherViewers(store: seq<Message>, userId: Id, roommateId: Id, viewer: Id, other: Id)
    requires viewer != userId
    ensures History(DeleteChat(store, userId, roommateId), viewer, other) == History(store, viewer, other)
  {
    if |store| > 0 {
      var after := DeleteChat(store, userId, roommateId);
      assert after[1..] == DeleteChat(store[1..], userId, roommateId);
      assert Visible(after[0], viewer, other) == Visible(store[0], viewer, other);
      DeleteChatKeepsOtherViewers(store[1..], userId, roommateId, viewer, other);
    }
  }

  /** Soft deletion is per user: afterwards the deleting user's history with the
      partner is empty, while every other user's history with anyone, the
      partner's included, is exactly what it was. */
  lemma DeleteChatIsPerUser(store: seq<Message>, userId: Id, roommateId: Id, viewer: Id, other: Id)
    requires viewer != userId
    ensures GetMessages(DeleteChat(store, userId, roommateId), userId, roommateId) == []
    ensures GetMessages(DeleteChat(store, userId, roommateId), viewer, other) == GetMessages(store, viewer, other)
  {
    DeleteChatEmptiesHistory(store, userId, roommateId);
    DeleteChatKeepsOtherViewers(store, userId, roommateId, viewer, other);
  }

  /** The update of `markAsRead`: unread messages sent by `other` to `reader` become read. */
  function MarkRead(store: seq<Message>, reader: Id, other: Id): (r: seq<Message>)
    ensures |r| == |store|
    ensures forall i :: 0 <= i < |r| ==> r[i] == store[i].(read := r[i].read)
    ensures forall i :: 0 <= i < |r| ==> (r[i].read <==> store[i].read || SentTo(store[i], other, reader))
  {
    if |store| == 0 then []
    else
      var m := store[0];
      [if SentTo(m, other, reader) && !m.read then m.(read := true) else m]
        + MarkRead(store[1..], reader, other)
  }

  /** Number of unread messages sent by `sender` to `receiver`: the records the update touches. */
  function UnreadFrom(store: seq<Message>, sender: Id, receiver: Id): nat {
    if |store| == 0 then 0
    else
      (if SentTo(store[0], sender, receiver) && !store[0].read then 1 else 0)
        + UnreadFrom(store[1..], sender, receiver)
  }

  /** Marking twice equals marking once, and the second update touches no record. */
  lemma {:induction false} MarkReadIdempotent(store: seq<Message>, reader: Id, other: Id)
    ensures MarkRead(MarkRead(store, reader, other), reader, other) == MarkRead(store, reader, other)
    ensures UnreadFrom(MarkRead(store, reader, other), other, reader) == 0
  {
    if |store| > 0 {
      var once := MarkRead(store, reader, other);
      assert once[1..] == MarkRead(store[1..], reader, other);
      MarkReadIdempotent(store[1..], reader, other);
    }
  }

  /** The update is directional: messages the reader sent, and every message
      not from `other` to `reader`, are left exactly as they were. */
  lemma MarkReadIsDirectional(store: seq<Message>, reader: Id, other: Id, i: nat)
    requires i < |store|
    requires !SentTo(store[i], other, reader)
    ensures MarkRead(store, reader, other)[i] == store[i]
  {
  }

  /** `deleteChat` over REST. The handler checks neither body field and always
      answers 200; a missing id is sent as null, which no stored message
      carries, so the update then matches nothing. */
  function DeleteChatRequest(store: seq<Message>, userId: Option<Id>, roommateId: Option<Id>): (r: Reply)
    ensures r.status == 200 && r.created.None?
    ensures userId.None? || roommateId.None? ==> r.store == store
    ensures userId.Some? && roommateId.Some? ==> r.store == DeleteChat(store, userId.value, roommateId.value)
  {
    if userId.None? || roommateId.None? then Reply(store, 200, None)
    else Reply(DeleteChat(store, userId.value, roommateId.value), 200, None)
  }

  /** After a successful REST delete the caller's conversation view is empty,
      and nobody else's changes. */
  lemma DeleteChatRequestHidesConversation(store: seq<Message>, userId: Id, roommateId: Id, viewer: Id, other: Id)
    requires viewer != userId
    ensures GetMessages(DeleteChatRequest(store, Some(userId), Some(roommateId)).store, userId, roommateId) == []
    ensures GetMessages(DeleteChatRequest(store, Some(userId), Some(roommateId)).store, viewer, other)
            == GetMessages(store, viewer, other)
  {
    DeleteChatIsPerUser(store, userId, roommateId, viewer, other);
  }

  /** `markAsRead` over REST. */
  function MarkAsRead(store: seq<Message>, userId: Option<Id>, roommateId: Option<Id>): (r: Reply)
    ensures r.created.None?
    ensures r.status == 400 <==> !Truthy(userId) || !Truthy(roommateId)
    ensures r.status == 400 ==> r.store == store
    ensures r.status != 400 ==> r.status == 200 && r.store == MarkRead(store, userId.value, roommateId.value)
  {
    if !Truthy(userId) || !Truthy(roommateId) then Reply(store, 400, None)
    else Reply(MarkRead(store, userId.value, roommateId.value), 200, None)
  }

  /** The folder the REST upload path writes into every message's `fileUrl`. */
  const RestUploadFolder := "uploads/others/"

  /** The stored kind of an uploaded file: 'image' for an 'image/' media type
      (a media type of the "image" top-level type of section 4.2 of RFC 2046),
      else 'document'. */
  function KindOfMimetype(mimetype: string): (kind: string)
    ensures kind == "image" <==> StartsWith(mimetype, "image/")
    ensures kind == "image" || kind == "document"
    ensures ParseFileType(kind).Some?
  {
    if StartsWith(mimetype, "image/") then "image" else "document"
  }

  /** `uploadFileAndSaveMessage`: builds the record itself, without `saveMessage`. */
  function UploadFileAndSaveMessage(store: seq<Message>, senderId: Option<Id>, receiverId: Option<Id>,
                                    message: Option<string>, file: Option<Upload.UploadedFile>, now: Time): (r: Reply)
    ensures file.None? ==> r.status == 400 && r.store == store && r.created.None?
    ensures file.Some? && !(Truthy(senderId) && Truthy(receiverId)) ==>
      r.status == 500 && r.store == store && r.created.None?
    ensures file.Some? && Truthy(senderId) && Truthy(receiverId) ==>
      && r.status == 201
      && r.created.Some?
      && (var m := r.created.value;
          && r.store == store + [m]
          && m.senderId == senderId.value && m.receiverId == receiverId.value
          && m.message == OrElse(message, "")
          && m.fileUrl == RestUploadFolder + file.value.filename
          && (m.fileType == Image <==> StartsWith(file.value.mimetype, "image/"))
          && m.fileType != NoFile
          && m.timestamp == now
          && !m.read && m.deletedFor == [])
  {
    if file.None? then Reply(store, 400, None)
    else
      var fields := ChatFields(
        senderId, receiverId,
        Some(OrElse(message, "")),
        Some(RestUploadFolder + file.value.filename),
        Some(KindOfMimetype(file.value.mimetype)),
        None,
        Some(false),
        Some([]));
      match Create(fields, now)
      case Success(m) => Reply(store + [m], 201, Some(m))
      case Failure(_) => Reply(store, 500, None)
  }

  /** Although the REST upload bypasses `saveMessage`, it stores exactly the
      record `saveMessage` would store for the same fields. */
  lemma RestUploadAgreesWithSaveMessage(store: seq<Message>, senderId: Option<Id>, receiverId: Option<Id>,
                                        message: Option<string>, file: Upload.UploadedFile, now: Time)
    ensures var rest := UploadFileAndSaveMessage(store, senderId, receiverId, message, Some(file), now);
      var data := ChatFields(senderId, receiverId, Some(OrElse(message, "")),
                             Some(RestUploadFolder + file.filename), Some(KindOfMimetype(file.mimetype)),
                             None, None, None);
      var saved := SaveMessage(store, data, now);
      && rest.store == saved.store
      && (rest.created.Some? <==> saved.outcome.Success?)
      && (rest.created.Some? ==> rest.created.value == saved.outcome.value)
  {
  }

  /** The stored `fileUrl` names the 'others' folder even when multer, because
      of a chat folder or a signed-in user, wrote the file somewhere else. */
  lemma RestUploadUrlIgnoresDestination(store: seq<Message>, senderId: Id, receiverId: Id,
                                        file: Upload.UploadedFile, now: Time, chatFolder: string)
    requires senderId != "" && receiverId != "" && chatFolder != ""
    ensures var req := Upload.UploadRequest(None, Some(chatFolder), None);
      var r := UploadFileAndSaveMessage(store, Some(senderId), Some(receiverId), None, Some(file), now);
      && Upload.Destination(req) == "./uploads/chats/" + chatFolder
      && r.created.Some?
      && r.created.value.fileUrl == "uploads/others/" + file.filename
  {
  }
}

=== FILE: chat_model.dfy ===
/** The chat message record of models/Chat.js: its fields, the `fileType`
    enumeration, the schema defaults and the validation `save()` performs. */
module ChatModel {
  import opened Base

  /** The `fileType` enumeration: 'image' | 'document' | 'none'. */
  datatype FileType = Image | Document | NoFile

  function FileTypeName(t: FileType): string {
    match t
    case Image => "image"
    case Document => "document"
    case NoFile => "none"
  }

  /** The enum validator: only the three listed names are accepted. */
  function ParseFileType(s: string): (r: Option<FileType>)
    ensures r.Some? <==> s == "image" || s == "document" || s == "none"
    ensures r.Some? ==> FileTypeName(r.value) == s
  {
    if s == "image" then Some(Image)
    else if s == "document" then Some(Document)
    else if s == "none" then Some(NoFile)
    else None
  }

  /** Every enum value survives the round trip through its stored name. */
  lemma FileTypeRoundTrip(t: FileType)
    ensures ParseFileType(FileTypeName(t)) == Some(t)
  {
  }

  /** A stored message: the canonical record every query and event carries. */
  datatype Message = Message(
    senderId: Id,
    receiverId: Id,
    message: string,
    fileUrl: string,
    fileType: FileType,
    timestamp: Time,
    read: bool,
    deletedFor: seq<Id>)

  /** The object handed to `new Chat({...})`; `None` is an absent key. */
  datatype ChatFields = ChatFields(
    senderId: Option<Id>,
    receiverId: Option<Id>,
    message: Option<string>,
    fileUrl: Option<string>,
    fileType: Option<string>,
    timestamp: Option<Time>,
    read: Option<bool>,
    deletedFor: Option<seq<Id>>)

  datatype SaveError = MissingSender | MissingReceiver | InvalidFileType(given: string)

  /** Whether `save()` accepts the fields: both participants present (an empty
      string does not cast to an ObjectId) and a `fileType`, if given, in the enum. */
  predicate Savable(f: ChatFields) {
    && Truthy(f.senderId)
    && Truthy(f.receiverId)
    && (f.fileType.None? || ParseFileType(f.fileType.value).Some?)
  }

  /** `new Chat(fields).save()`: defaults fill absent keys (`message`/`fileUrl`
      to '', `fileType` to 'none', `timestamp` to the current time, `read` to
      false, `deletedFor` to []), then validation either stores the record or
      rejects it. */
  function Create(f: ChatFields, now: Time): (r: Result<Message, SaveError>)
    ensures r.Success? <==> Savable(f)
    ensures r.Failure? && !Truthy(f.senderId) ==> r.error == MissingSender
    ensures r.Success? ==>
      && r.value.senderId == f.senderId.value
      && r.value.receiverId == f.receiverId.value
      && (f.message.None? ==> r.value.message == "")
      && (f.message.Some? ==> r.value.message == f.message.value)
      && (f.fileUrl.None? ==> r.value.fileUrl == "")
      && (f.fileUrl.Some? ==> r.value.fileUrl == f.fileUrl.value)
      && (f.fileType.None? ==> r.value.fileType == NoFile)
      && (f.fileType.Some? ==> FileTypeName(r.value.fileType) == f.fileType.value)
      && (f.timestamp.None? ==> r.value.timestamp == now)
      && (f.timestamp.Some? ==> r.value.timestamp == f.timestamp.value)
      && (f.read.None? ==> !r.value.read)
      && (f.read.Some? ==> r.value.read == f.read.value)
      && (f.deletedFor.None? ==> r.value.deletedFor == [])
      && (f.deletedFor.Some? ==> r.value.deletedFor == f.deletedFor.value)
  {
    if !Truthy(f.senderId) then Failure(MissingSender)
    else if !Truthy(f.receiverId) then Failure(MissingReceiver)
    else
      var kind := if f.fileType.None? then Some(NoFile) else ParseFileType(f.fileType.value);
      if kind.None? then Failure(InvalidFileType(f.fileType.value))
      else Success(Message(
        f.senderId.value,
        f.receiverId.value,
        if f.message.Some? then f.message.value else "",
        if f.fileUrl.Some? then f.fileUrl.value else "",
        kind.value,
        if f.timestamp.Some? then f.timestamp.value else now,
        if f.read.Some? then f.read.value else false,
        if f.deletedFor.Some? then f.deletedFor.value else []))
  }

  /** A message as queries return it after `.select('-deletedFor')`. */
  datatype MessageView = MessageView(
    senderId: Id,
    receiverId: Id,
    message: string,
    fileUrl: string,
    fileType: FileType,
    timestamp: Time,
    read: bool)

  function View(m: Message): MessageView {
    MessageView(m.senderId, m.receiverId, m.message, m.fileUrl, m.fileType, m.timestamp, m.read)
  }

  /** Sort key of the history query `.sort({ timestamp: 1 })`. */
  function ViewTime(v: MessageView): int {
    v.timestamp
  }

  /** The message belongs to the conversation of `u` and `v`, in either direction. */
  predicate InConversation(m: Message, u: Id, v: Id) {
    (m.senderId == u && m.receiverId == v) || (m.senderId == v && m.receiverId == u)
  }

  /** The message was sent by `sender` to `receiver` (one direction only). */
  predicate SentTo(m: Message, sender: Id, receiver: Id) {
    m.senderId == sender && m.receiverId == receiver
  }
}

=== FILE: documents.dfy ===
/** The document record of models/Document.js and the upload and delete
    handlers of routes/documentRoutes.js, which keep each user's `documents`
    list in step with the documents collection. The file system is not
    modelled. */
module Documents {
  import opened Base
  import opened UserModel
  import Upload

  datatype Document = Document(
    id: Id,
    user: Id,
    name: string,
    path: string,
    size: nat,
    mimetype: string,
    uploadDate: Time,
    description: string)

  const DefaultDescription := "Uploaded Document"

  datatype DocumentReply = DocumentReply(documents: seq<Document>, users: seq<User>, status: int)

  /** Every document's owner is a stored user whose list names the document. */
  predicate Owned(docs: seq<Document>, users: seq<User>) {
    forall i :: 0 <= i < |docs| ==>
      FindById(users, docs[i].user).Some? && docs[i].id in users[FindById(users, docs[i].user).value].documents
  }

  /** Every id in a user's list names a document of that user. */
  predicate Listed(docs: seq<Document>, users: seq<User>) {
    forall k, x :: 0 <= k < |users| && x in users[k].documents ==>
      FindDocument(docs, x).Some? && docs[FindDocument(docs, x).value].user == users[k].id
  }

  /** The documents collection and the users' `documents` lists agree. */
  predicate Consistent(docs: seq<Document>, users: seq<User>) {
    Owned(docs, users) && Listed(docs, users)
  }

  predicate DocIdsUnique(docs: seq<Document>) {
    forall i, j :: 0 <= i < j < |docs| ==> docs[i].id != docs[j].id
  }

  /** With unique ids, the lookup finds the one document with that id. */
  lemma FindUniqueDocument(docs: seq<Document>, j: nat)
    requires DocIdsUnique(docs) && j < |docs|
    ensures FindDocument(docs, docs[j].id) == Some(j)
  {
  }

  /** `$push: { documents: id }` on the user with id `userId`, if any. */
  function PushDocument(users: seq<User>, userId: Id, docId: Id): (r: seq<User>)
    ensures |r| == |users|
    ensures FindById(users, userId).None? ==> r == users
    ensures FindById(users, userId).Some? ==>
      var k := FindById(users, userId).value;
      && r[k] == users[k].(documents := users[k].documents + [docId])
      && forall j :: 0 <= j < |users| && j != k ==> r[j] == users[j]
  {
    match FindById(users, userId)
    case None => users
    case Some(k) => users[k := users[k].(documents := users[k].documents + [docId])]
  }

  /** The upload route. Without a file, reading `req.file` throws (500);
      a record the schema refuses also answers 500. Otherwise the document is
      created for the caller and its id appended to the caller's list. */
  function UploadDocument(docs: seq<Document>, users: seq<User>, caller: Id, file: Option<Upload.UploadedFile>,
                          description: Option<string>, newId: Id, now: Time): (r: DocumentReply)
    ensures r.status == 201 || r.status == 500
    ensures file.None? ==> r.status == 500
    ensures r.status == 201 <==>
      file.Some? && file.value.filename != "" && file.value.path != "" && file.value.mimetype != ""
    ensures r.status == 500 ==> r.documents == docs && r.users == users
    ensures r.status == 201 ==>
      && file.Some?
      && r.documents == docs + [Document(newId, caller, file.value.filename, file.value.path, file.value.size,
                                         file.value.mimetype, now, OrElse(description, DefaultDescription))]
      && r.users == PushDocument(users, caller, newId)
  {
    if file.None? then DocumentReply(docs, users, 500)
    else
      var f := file.value;
      if f.filename == "" || f.path == "" || f.mimetype == "" then DocumentReply(docs, users, 500)
      else
        var d := Document(newId, caller, f.filename, f.path, f.size, f.mimetype, now,
                          OrElse(description, DefaultDescription));
        DocumentReply(docs + [d], PushDocument(users, caller, newId), 201)
  }

  /** An upload under a fresh id keeps the ids unique and, when the caller
      is a stored user, the collections consistent. */
  lemma UploadKeepsConsistent(docs: seq<Document>, users: seq<User>, caller: Id, file: Option<Upload.UploadedFile>,
                              description: Option<string>, newId: Id, now: Time)
    requires Consistent(docs, users) && DocIdsUnique(docs)
    requires FindById(users, caller).Some?
    requires forall i :: 0 <= i < |docs| ==> docs[i].id != newId
    ensures var r := UploadDocument(docs, users, caller, file, description, newId, now);
      Consistent(r.documents, r.users) && DocIdsUnique(r.documents)
  {
    var r := UploadDocument(docs, users, caller, file, description, newId, now);
    if r.status == 201 {
      var k := FindById(users, caller).value;
      var docs', users' := r.documents, r.users;
      assert DocIdsUnique(docs');
      forall id ensures FindById(users', id) == FindById(users, id) {
        FindByIdAfterUpdate(users, k, users'[k], id);
      }
      forall i | 0 <= i < |docs'|
        ensures FindById(users', docs'[i].user).Some?
        ensures docs'[i].id in users'[FindById(users', docs'[i].user).value].documents
      {
        if i < |docs| {
          assert docs'[i] == docs[i];
        }
      }
      forall k', x | 0 <= k' < |users'| && x in users'[k'].documents
        ensures FindDocument(docs', x).Some? && docs'[FindDocument(docs', x).value].user == users'[k'].id
      {
        if k' == k && x == newId {
          FindUniqueDocument(docs', |docs|);
        } else {
          assert x in users[k'].documents;
          var j := FindDocument(docs, x).value;
          assert docs'[j] == docs[j];
          FindUniqueDocument(docs', j);
        }
      }
    }
  }

  function FindDocument(docs: seq<Document>, id: Id): (r: Option<nat>)
    ensures r.Some? ==> r.value < |docs| && docs[r.value].id == id
    ensures r.Some? ==> forall j :: 0 <= j < r.value ==> docs[j].id != id
    ensures r.None? ==> forall j :: 0 <= j < |docs| ==> docs[j].id != id
  {
    FindFirst(docs, (x: Document) => x.id == id)
  }

  /** `$pull: { documents: id }` on the user with id `userId`, if any. */
  function PullDocument(users: seq<User>, userId: Id, docId: Id): (r: seq<User>)
    ensures |r| == |users|
    ensures FindById(users, userId).None? ==> r == users
    ensures FindById(users, userId).Some? ==>
      var k := FindById(users, userId).value;
      && r[k] == users[k].(documents := r[k].documents)
      && (forall x :: x in r[k].documents <==> x in users[k].documents && x != docId)
      && multiset(r[k].documents) == multiset(users[k].documents)[docId := 0]
      && forall j :: 0 <= j < |users| && j != k ==> r[j] == users[j]
  {
    match FindById(users, userId)
    case None => users
    case Some(k) =>
      var kept := Filter(users[k].documents, OtherThan(docId));
      FilterMultiset(users[k].documents, OtherThan(docId));
      assert multiset(kept) == multiset(users[k].documents)[docId := 0];
      users[k := users[k].(documents := kept)]
  }

  /** The ids `$pull` keeps. */
  function OtherThan(docId: Id): Id -> bool {
    (x: Id) => x != docId
  }

  /** The first delete route (the second one, registered for the same path,
      never runs): 404 for an unknown document, 403 for a document of someone
      else, otherwise the id leaves the caller's list and the record is removed. */
  function DeleteDocument(docs: seq<Document>, users: seq<User>, caller: Id, docId: Id): (r: DocumentReply)
    ensures FindDocument(docs, docId).None? ==> r == DocumentReply(docs, users, 404)
    ensures FindDocument(docs, docId).Some? ==>
      var i := FindDocument(docs, docId).value;
      && (docs[i].user != caller ==> r == DocumentReply(docs, users, 403))
      && (docs[i].user == caller ==>
            && r.status == 200
            && r.documents == docs[..i] + docs[i + 1..]
            && r.users == PullDocument(users, caller, docId))
  {
    match FindDocument(docs, docId)
    case None => DocumentReply(docs, users, 404)
    case Some(i) =>
      if docs[i].user != caller then DocumentReply(docs, users, 403)
      else DocumentReply(docs[..i] + docs[i + 1..], PullDocument(users, caller, docId), 200)
  }

  /** Removing one document keeps the remaining ids unique. */
  lemma RemoveKeepsIdsUnique(docs: seq<Document>, i: nat)
    requires DocIdsUnique(docs) && i < |docs|
    ensures DocIdsUnique(docs[..i] + docs[i + 1..])
  {
    var rest := docs[..i] + docs[i + 1..];
    assert forall j :: 0 <= j < |rest| ==> rest[j] == docs[if j < i then j else j + 1];
  }

  /** A deletion keeps the collections consistent when ids are unique. */
  lemma DeleteKeepsConsistent(docs: seq<Document>, users: seq<User>, caller: Id, docId: Id)
    requires Consistent(docs, users)
    requires DocIdsUnique(docs) && UserIdsUnique(users)
    ensures var r := DeleteDocument(docs, users, caller, docId);
      Consistent(r.documents, r.users) && DocIdsUnique(r.documents)
  {
    var r := DeleteDocument(docs, users, caller, docId);
    if r.status == 200 {
      var i := FindDocument(docs, docId).value;
      RemoveKeepsIdsUnique(docs, i);
      DeleteKeepsOwned(docs, users, caller, i);
      DeleteKeepsListed(docs, users, caller, i);
    }
  }

  lemma DeleteKeepsOwned(docs: seq<Document>, users: seq<User>, caller: Id, i: nat)
    requires Owned(docs, users) && DocIdsUnique(docs)
    requires i < |docs| && docs[i].user == caller
    ensures Owned(docs[..i] + docs[i + 1..], PullDocument(users, caller, docs[i].id))
  {
    var docs' := docs[..i] + docs[i + 1..];
    var users' := PullDocument(users, caller, docs[i].id);
    var k := FindById(users, caller).value;
    forall id ensures FindById(users', id) == FindById(users, id) {
      FindByIdAfterUpdate(users, k, users'[k], id);
    }
    forall j | 0 <= j < |docs'|
      ensures FindById(users', docs'[j].user).Some?
      ensures docs'[j].id in users'[FindById(users', docs'[j].user).value].documents
    {
      var jj := if j < i then j else j + 1;
      assert docs'[j] == docs[jj];
      assert docs[jj].id != docs[i].id;
    }
  }

  lemma DeleteKeepsListed(docs: seq<Document>, users: seq<User>, caller: Id, i: nat)
    requires Listed(docs, users) && DocIdsUnique(docs) && UserIdsUnique(users)
    requires i < |docs| && docs[i].user == caller && FindById(users, caller).Some?
    ensures Listed(docs[..i] + docs[i + 1..], PullDocument(users, caller, docs[i].id))
  {
    var docs' := docs[..i] + docs[i + 1..];
    var users' := PullDocument(users, caller, docs[i].id);
    var k := FindById(users, caller).value;
    RemoveKeepsIdsUnique(docs, i);
    forall k', x | 0 <= k' < |users'| && x in users'[k'].documents
      ensures FindDocument(docs', x).Some? && docs'[FindDocument(docs', x).value].user == users'[k'].id
    {
      assert x in users[k'].documents;
      var jj := FindDocument(docs, x).value;
      assert jj != i;
      var j := if jj < i then jj else jj - 1;
      assert docs'[j] == docs[jj];
      FindUniqueDocument(docs', j);
    }
  }
}

=== FILE: notifications.dfy ===
/** The notification record of models/notificationModel.js and the listing
    and read-marking handlers of controllers/notificationController.js. */
module Notifications {
  import opened Base
  import opened Sorting

  /** A stored notification; `userId` is null for a notification addressed to no one. */
  datatype Notification = Notification(
    id: Id,
    title: string,
    message: string,
    userId: Option<Id>,
    isGeneral: bool,
    read: bool,
    createdAt: Time)

  /** A new notification with the schema defaults: not general, unread. */
  function NewNotification(id: Id, title: string, message: string, userId: Option<Id>, now: Time): (n: Notification)
    ensures n.id == id && n.title == title && n.message == message && n.userId == userId
    ensures !n.isGeneral && !n.read && n.createdAt == now
  {
    Notification(id, title, message, userId, false, false, now)
  }

  /** Sorting key for `.sort({ createdAt: -1 })`. */
  function NewestFirst(n: Notification): int { -n.createdAt }

  predicate ShownTo(n: Notification, userId: Id) {
    n.userId == Some(userId) || n.isGeneral
  }

  /** `getNotifications`: the user's own and the general notifications, newest first. */
  function GetNotifications(ns: seq<Notification>, userId: Id): (r: seq<Notification>)
    ensures forall n :: n in r <==> n in ns && (n.userId == Some(userId) || n.isGeneral)
    ensures forall i, j :: 0 <= i < j < |r| ==> r[i].createdAt >= r[j].createdAt
    ensures multiset(r) == multiset(Filter(ns, (n: Notification) => ShownTo(n, userId)))
  {
    var r := SortBy(Filter(ns, (n: Notification) => ShownTo(n, userId)), NewestFirst);
    assert SortedBy(r, NewestFirst);
    r
  }

  predicate UnreadFor(n: Notification, userId: Id) {
    n.userId == Some(userId) && !n.read
  }

  /** `getUnreadNotifications`: unread notifications addressed to the user,
      newest first; general ones addressed to no one are not included. */
  function GetUnreadNotifications(ns: seq<Notification>, userId: Id): (r: seq<Notification>)
    ensures forall n :: n in r <==> n in ns && n.userId == Some(userId) && !n.read
    ensures forall i, j :: 0 <= i < j < |r| ==> r[i].createdAt >= r[j].createdAt
    ensures multiset(r) == multiset(Filter(ns, (n: Notification) => UnreadFor(n, userId)))
  {
    var r := SortBy(Filter(ns, (n: Notification) => UnreadFor(n, userId)), NewestFirst);
    assert SortedBy(r, NewestFirst);
    r
  }

  /** A notification created for a user after every stored one heads both of
      that user's listings once it is stored. */
  lemma NewNotificationListedFirst(ns: seq<Notification>, id: Id, title: string, message: string, userId: Id, now: Time)
    requires forall i :: 0 <= i < |ns| ==> ns[i].createdAt < now
    ensures var n := NewNotification(id, title, message, Some(userId), now);
      var all := GetNotifications(ns + [n], userId);
      var unread := GetUnreadNotifications(ns + [n], userId);
      && |all| > 0 && all[0] == n
      && |unread| > 0 && unread[0] == n
  {
    var n := NewNotification(id, title, message, Some(userId), now);
    var after := ns + [n];
    var all := GetNotifications(after, userId);
    var unread := GetUnreadNotifications(after, userId);
    assert n in after;
    assert n in all && n in unread;
    assert all[0] in after && unread[0] in after;
  }

  /** Every unread notification of the user is also in the full listing. */
  lemma UnreadIsSubsetOfAll(ns: seq<Notification>, userId: Id)
    ensures forall n :: n in GetUnreadNotifications(ns, userId) ==> n in GetNotifications(ns, userId)
  {
  }

  function FindNotification(ns: seq<Notification>, id: Id): (r: Option<nat>)
    ensures r.Some? ==> r.value < |ns| && ns[r.value].id == id
    ensures r.Some? ==> forall j :: 0 <= j < r.value ==> ns[j].id != id
    ensures r.None? ==> forall j :: 0 <= j < |ns| ==> ns[j].id != id
  {
    FindFirst(ns, (x: Notification) => x.id == id)
  }

  datatype NotificationReply = NotificationReply(notifications: seq<Notification>, status: int)

  /** `markNotificationAsRead`: that notification only becomes read. */
  function MarkNotificationAsRead(ns: seq<Notification>, id: Id): (r: NotificationReply)
    ensures |r.notifications| == |ns|
    ensures r.status == 404 <==> FindNotification(ns, id).None?
    ensures r.status == 404 ==> r.notifications == ns
    ensures r.status != 404 ==>
      && r.status == 200
      && var i := FindNotification(ns, id).value;
         && r.notifications[i] == ns[i].(read := true)
         && forall j :: 0 <= j < |ns| && j != i ==> r.notifications[j] == ns[j]
  {
    match FindNotification(ns, id)
    case None => NotificationReply(ns, 404)
    case Some(i) => NotificationReply(ns[i := ns[i].(read := true)], 200)
  }

  lemma FindNotificationAfterUpdate(ns: seq<Notification>, i: nat, n: Notification, id: Id)
    requires i < |ns| && n.id == ns[i].id
    ensures FindNotification(ns[i := n], id) == FindNotification(ns, id)
  {
    assert forall j :: 0 <= j < |ns| ==> (ns[i := n][j].id == id <==> ns[j].id == id);
  }

  /** Marking twice is marking once. */
  lemma MarkNotificationAsReadIdempotent(ns: seq<Notification>, id: Id)
    ensures var once := MarkNotificationAsRead(ns, id).notifications;
      MarkNotificationAsRead(once, id) == NotificationReply(once, if FindNotification(ns, id).Some? then 200 else 404)
  {
    match FindNotification(ns, id)
    case None =>
    case Some(i) =>
      var once := MarkNotificationAsRead(ns, id).notifications;
      FindNotificationAfterUpdate(ns, i, once[i], id);
      assert once[i := once[i].(read := true)] == once;
  }

  predicate IdsUnique(ns: seq<Notification>) {
    forall i, j :: 0 <= i < j < |ns| ==> ns[i].id != ns[j].id
  }

  /** With unique ids, a marked notification leaves every unread listing. */
  lemma MarkedLeavesUnread(ns: seq<Notification>, id: Id, userId: Id)
    requires IdsUnique(ns)
    ensures forall n :: n in GetUnreadNotifications(MarkNotificationAsRead(ns, id).notifications, userId) ==> n.id != id
  {
    var after := MarkNotificationAsRead(ns, id).notifications;
    forall n | n in GetUnreadNotifications(after, userId) ensures n.id != id {
      var k :| 0 <= k < |after| && after[k] == n;
      if FindNotification(ns, id).Some? {
        var i := FindNotification(ns, id).value;
        if k != i {
          assert after[k] == ns[k];
        }
      }
    }
  }
}

=== FILE: reservations.dfy ===
/** The reservation record of models/Reservation.js and the handlers of
    controllers/reservationController.js: creation guards, the caller's list,
    the paginated and role-scoped listing, status updates with their
    notification, cancellation and deletion. */
module Reservations {
  import opened Base
  import opened Sorting
  import Rooms
  import opened UserModel
  import opened Notifications

  /** A stored reservation. `reservationId` is the business identifier the
      status update and deletion look up; `id` is the document id. */
  datatype Reservation = Reservation(
    id: Id,
    reservationId: string,
    roomType: string,
    roomId: Id,
    status: string,
    user: Id,
    createdAt: Time)

  const Pending := "Pending"
  const Approved := "Approved"
  const Rejected := "Rejected"
  const Canceled := "Canceled"

  /** The statuses `updateReservationStatus` accepts. */
  const StatusAllowList: seq<string> := [Pending, Approved, Rejected]

  datatype ReservationRequest = ReservationRequest(
    reservationId: Option<string>,
    roomType: Option<string>,
    roomId: Option<Id>)

  /** `createReservation`. The guards run in order: no room id (400), unknown
      room (404), no authenticated caller (401). A missing business id or room
      type fails the schema on save (500). */
  function CreateReservation(reservations: seq<Reservation>, rooms: seq<Rooms.Room>, req: ReservationRequest,
                             caller: Option<Id>, newId: Id, now: Time): (r: (seq<Reservation>, int))
    ensures r.1 != 201 ==> r.0 == reservations
    ensures !Truthy(req.roomId) ==> r.1 == 400
    ensures Truthy(req.roomId) && Rooms.FindRoom(rooms, req.roomId.value).None? ==> r.1 == 404
    ensures Truthy(req.roomId) && Rooms.FindRoom(rooms, req.roomId.value).Some? && !Truthy(caller) ==> r.1 == 401
    ensures r.1 == 201 <==>
      && Truthy(req.roomId) && Rooms.FindRoom(rooms, req.roomId.value).Some? && Truthy(caller)
      && Truthy(req.reservationId) && Truthy(req.roomType)
    ensures r.1 == 201 ==>
      && Truthy(req.roomId) && Rooms.FindRoom(rooms, req.roomId.value).Some? && Truthy(caller)
      && Truthy(req.reservationId) && Truthy(req.roomType)
      && r.0 == reservations + [Reservation(newId, req.reservationId.value, req.roomType.value,
                                             req.roomId.value, Pending, caller.value, now)]
    ensures r.1 in {201, 400, 401, 404, 500}
  {
    if !Truthy(req.roomId) then (reservations, 400)
    else if Rooms.FindRoom(rooms, req.roomId.value).None? then (reservations, 404)
    else if !Truthy(caller) then (reservations, 401)
    else if !Truthy(req.reservationId) || !Truthy(req.roomType) then (reservations, 500)
    else
      var res := Reservation(newId, req.reservationId.value, req.roomType.value, req.roomId.value,
                             Pending, caller.value, now);
      (reservations + [res], 201)
  }

  /** Sorting key for `.sort({ createdAt: -1 })`. */
  function NewestFirst(x: Reservation): int { -x.createdAt }

  function SortNewestFirst(s: seq<Reservation>): (r: seq<Reservation>)
    ensures forall i, j :: 0 <= i < j < |r| ==> r[i].createdAt >= r[j].createdAt
    ensures multiset(r) == multiset(s) && |r| == |s|
    ensures forall x :: x in r <==> x in s
  {
    var r := SortBy(s, NewestFirst);
    assert SortedBy(r, NewestFirst);
    r
  }

  /** `getReservations`: 401 without a caller; otherwise the caller's
      reservations, newest first. */
  function GetReservations(reservations: seq<Reservation>, caller: Option<Id>): (r: Result<seq<Reservation>, int>)
    ensures !Truthy(caller) <==> r == Failure(401)
    ensures r.Success? ==>
      && (forall x :: x in r.value <==> x in reservations && x.user == caller.value)
      && (forall i, j :: 0 <= i < j < |r.value| ==> r.value[i].createdAt >= r.value[j].createdAt)
      && multiset(r.value) == multiset(Filter(reservations, MadeBy(caller.value)))
      && forall x :: multiset(r.value)[x] == if x.user == caller.value then multiset(reservations)[x] else 0
  {
    if !Truthy(caller) then Failure(401)
    else
      FilterMultiset(reservations, MadeBy(caller.value));
      Success(SortNewestFirst(Filter(reservations, MadeBy(caller.value))))
  }

  /** The filter of `getReservations`: reservations made by `user`. */
  function MadeBy(user: Id): Reservation -> bool {
    (x: Reservation) => x.user == user
  }

  /** A created reservation is listed for its maker, next to everything that
      was listed before, and nothing else changes in the listing. */
  lemma CreateReservationListed(reservations: seq<Reservation>, rooms: seq<Rooms.Room>, req: ReservationRequest,
                                caller: Option<Id>, newId: Id, now: Time)
    requires CreateReservation(reservations, rooms, req, caller, newId, now).1 == 201
    ensures var after := CreateReservation(reservations, rooms, req, caller, newId, now).0;
      var created := after[|after| - 1];
      && created in GetReservations(after, caller).value
      && multiset(GetReservations(after, caller).value)
           == multiset(GetReservations(reservations, caller).value) + multiset{created}
  {
    var after := CreateReservation(reservations, rooms, req, caller, newId, now).0;
    var created := after[|after| - 1];
    assert after == reservations + [created];
    assert created.user == caller.value;
    FilterAppend(reservations, [created], MadeBy(caller.value));
    assert Filter([created], MadeBy(caller.value)) == [created] by { assert [created][1..] == []; }
  }

  /** Deleting a reservation removes exactly one copy of it from its maker's
      listing and leaves every other user's listing as it was. */
  lemma DeleteReservationUnlists(reservations: seq<Reservation>, reservationId: string, caller: Option<Id>)
    requires Truthy(caller)
    requires DeleteReservation(reservations, reservationId).1 == 200
    ensures var after := DeleteReservation(reservations, reservationId).0;
      var gone := reservations[FindByReservationId(reservations, reservationId).value];
      multiset(GetReservations(after, caller).value)
        + (if gone.user == caller.value then multiset{gone} else multiset{})
        == multiset(GetReservations(reservations, caller).value)
  {
    var i := FindByReservationId(reservations, reservationId).value;
    assert reservations == reservations[..i] + [reservations[i]] + reservations[i + 1..];
    FilterRemoveMiddle(reservations[..i], reservations[i], reservations[i + 1..], MadeBy(caller.value));
  }

  /** Ids of the rooms `owner` owns. */
  function OwnedRoomIds(rooms: seq<Rooms.Room>, owner: Id): set<Id> {
    set room | room in rooms && room.owner == owner :: room.id
  }

  /** The query `getAllReservations` builds; `scope` is the owned room ids for
      a room owner and `None` for every other role. */
  predicate MatchesQuery(x: Reservation, status: Option<string>, roomType: Option<string>, scope: Option<set<Id>>) {
    && (Truthy(status) ==> x.status == status.value)
    && (Truthy(roomType) ==> x.roomType == roomType.value)
    && (scope.Some? ==> x.roomId in scope.value)
  }

  /** The owned room ids for a room owner; no restriction for any other role. */
  function Scope(rooms: seq<Rooms.Room>, caller: Id, role: string): Option<set<Id>> {
    if role == RoomOwner then Some(OwnedRoomIds(rooms, caller)) else None
  }

  function Query(status: Option<string>, roomType: Option<string>, scope: Option<set<Id>>): Reservation -> bool {
    (x: Reservation) => MatchesQuery(x, status, roomType, scope)
  }

  /** `Math.ceil(total / limit)` on naturals. */
  function CeilDiv(total: nat, limit: nat): (n: nat)
    requires limit > 0
    ensures n * limit >= total
    ensures n > 0 ==> (n - 1) * limit < total
  {
    (total + limit - 1) / limit
  }

  /** `.skip(skip).limit(limit)` on an already sorted result. */
  function Page<T>(s: seq<T>, skip: nat, limit: nat): (r: seq<T>)
    ensures |r| <= limit
    ensures skip >= |s| ==> r == []
    ensures forall i :: 0 <= i < |r| ==> skip + i < |s| && r[i] == s[skip + i]
    ensures skip < |s| ==> |r| == if skip + limit <= |s| then limit else |s| - skip
  {
    if skip >= |s| then []
    else if skip + limit <= |s| then s[skip..skip + limit]
    else s[skip..]
  }

  datatype ReservationPage = ReservationPage(
    reservations: seq<Reservation>,
    total: nat,
    currentPage: nat,
    totalPages: nat)

  /** The matching reservations in the order every page is cut from. */
  function Matching(reservations: seq<Reservation>, rooms: seq<Rooms.Room>, caller: Id, role: string,
                    status: Option<string>, roomType: Option<string>): seq<Reservation>
  {
    SortNewestFirst(Filter(reservations, Query(status, roomType, Scope(rooms, caller, role))))
  }

  /** `getAllReservations`. Page 0 asks Mongo to skip a negative count, which
      fails (500). Otherwise the page is cut from the matching reservations,
      newest first; `GetAllReservationsContents` states what is on it. */
  function GetAllReservations(reservations: seq<Reservation>, rooms: seq<Rooms.Room>, caller: Id, role: string,
                              page: nat, limit: nat, status: Option<string>, roomType: Option<string>)
    : (r: Result<ReservationPage, int>)
    requires limit > 0
    ensures page == 0 <==> r == Failure(500)
    ensures r.Success? ==>
      && r.value.currentPage == page
      && r.value.total == |Matching(reservations, rooms, caller, role, status, roomType)|
      && r.value.totalPages * limit >= r.value.total
      && (r.value.totalPages > 0 ==> (r.value.totalPages - 1) * limit < r.value.total)
      && |r.value.reservations| <= limit
  {
    if page == 0 then Failure(500)
    else
      var all := Matching(reservations, rooms, caller, role, status, roomType);
      Success(ReservationPage(Page(all, (page - 1) * limit, limit), |all|, page, CeilDiv(|all|, limit)))
  }

  /** What a page holds: reservations that match the query, newest first.
      The reported total counts every match, not just the page. */
  lemma GetAllReservationsContents(reservations: seq<Reservation>, rooms: seq<Rooms.Room>, caller: Id, role: string,
                                   page: nat, limit: nat, status: Option<string>, roomType: Option<string>)
    requires limit > 0
    ensures var r := GetAllReservations(reservations, rooms, caller, role, page, limit, status, roomType);
      var scope := Scope(rooms, caller, role);
      r.Success? ==>
      && r.value.total == Count(reservations, Query(status, roomType, scope))
      && (forall x :: x in r.value.reservations ==> x in reservations && MatchesQuery(x, status, roomType, scope))
      && (forall i, j :: 0 <= i < j < |r.value.reservations| ==>
            r.value.reservations[i].createdAt >= r.value.reservations[j].createdAt)
  {
    if page > 0 {
      var all := Matching(reservations, rooms, caller, role, status, roomType);
      PageOfSorted(all, (page - 1) * limit, limit, NewestFirst);
    }
  }

  /** A room owner only sees reservations of rooms they own. */
  lemma GetAllReservationsOwnerScope(reservations: seq<Reservation>, rooms: seq<Rooms.Room>, caller: Id,
                                     page: nat, limit: nat, status: Option<string>, roomType: Option<string>)
    requires limit > 0
    ensures var r := GetAllReservations(reservations, rooms, caller, RoomOwner, page, limit, status, roomType);
      r.Success? ==> forall x :: x in r.value.reservations ==>
        exists room :: room in rooms && room.id == x.roomId && room.owner == caller
  {
    GetAllReservationsContents(reservations, rooms, caller, RoomOwner, page, limit, status, roomType);
  }

  /** A page of a sorted sequence is a sorted part of it. */
  lemma PageOfSorted<T>(s: seq<T>, skip: nat, limit: nat, key: T -> int)
    requires SortedBy(s, key)
    ensures SortedBy(Page(s, skip, limit), key)
    ensures forall x :: x in Page(s, skip, limit) ==> x in s
  {
    var p := Page(s, skip, limit);
    forall x | x in p ensures x in s {
      var i :| 0 <= i < |p| && p[i] == x;
      assert s[skip + i] == x;
    }
  }

  /** No two reservations share a creation time. */
  predicate DistinctTimes(s: seq<Reservation>) {
    forall a, b :: 0 <= a < b < |s| ==> s[a].createdAt != s[b].createdAt
  }

  /** Pagination loses nothing and repeats nothing: the reservation at
      position `k == (page - 1) * limit + i` of the matching list is the
      `i`-th entry of page `page`, and that page number never exceeds the
      reported page count. Each page is a query of its own, and Mongo orders
      equal `createdAt` values freely in each, so this needs the matches'
      creation times to be distinct: the newest-first order is then the only
      one. */
  lemma PageOfIndex(reservations: seq<Reservation>, rooms: seq<Rooms.Room>, caller: Id, role: string,
                    limit: nat, status: Option<string>, roomType: Option<string>, page: nat, i: nat, k: nat)
    requires page > 0 && i < limit && k == (page - 1) * limit + i
    requires DistinctTimes(Matching(reservations, rooms, caller, role, status, roomType))
    requires k < |Matching(reservations, rooms, caller, role, status, roomType)|
    ensures var r := GetAllReservations(reservations, rooms, caller, role, page, limit, status, roomType);
      && r.Success?
      && page <= r.value.totalPages
      && i < |r.value.reservations|
      && r.value.reservations[i] == Matching(reservations, rooms, caller, role, status, roomType)[k]
  {
    var all := Matching(reservations, rooms, caller, role, status, roomType);
    PageIndex(all, limit, page, i);
  }

  /** The arithmetic of `PageOfIndex`, on any sorted result. */
  lemma PageIndex<T>(all: seq<T>, limit: nat, page: nat, i: nat)
    requires page > 0 && i < limit && (page - 1) * limit + i < |all|
    ensures page <= CeilDiv(|all|, limit)
    ensures var p := Page(all, (page - 1) * limit, limit);
      i < |p| && p[i] == all[(page - 1) * limit + i]
  {
    var n := CeilDiv(|all|, limit);
    if n < page {
      MulMonotone(n, page - 1, limit);
      assert false;
    }
  }

  lemma MulMonotone(a: nat, b: nat, c: nat)
    requires a <= b
    ensures a * c <= b * c
  {
  }

  /** A page past the last one is empty. */
  lemma PageBeyondLastIsEmpty(reservations: seq<Reservation>, rooms: seq<Rooms.Room>, caller: Id, role: string,
                              page: nat, limit: nat, status: Option<string>, roomType: Option<string>)
    requires limit > 0
    requires var r := GetAllReservations(reservations, rooms, caller, role, page, limit, status, roomType);
      r.Success? && page > r.value.totalPages
    ensures GetAllReservations(reservations, rooms, caller, role, page, limit, status, roomType).value.reservations == []
  {
    var all := Matching(reservations, rooms, caller, role, status, roomType);
    var n := CeilDiv(|all|, limit);
    MulMonotone(n, page - 1, limit);
  }

  datatype StatusUpdateReply = StatusUpdateReply(
    reservations: seq<Reservation>,
    notifications: seq<Notification>,
    status: int)

  function FindByReservationId(reservations: seq<Reservation>, reservationId: string): (r: Option<nat>)
    ensures r.Some? ==> r.value < |reservations| && reservations[r.value].reservationId == reservationId
    ensures r.Some? ==> forall j :: 0 <= j < r.value ==> reservations[j].reservationId != reservationId
    ensures r.None? ==> forall j :: 0 <= j < |reservations| ==> reservations[j].reservationId != reservationId
  {
    FindFirst(reservations, (x: Reservation) => x.reservationId == reservationId)
  }

  const StatusUpdatedTitle := "Reservation Status Updated"

  function StatusUpdatedMessage(status: string): string {
    "Your reservation status has been updated to " + status + "."
  }

  /** `updateReservationStatus`. The push message is best effort and does not
      affect the outcome, so it is not modelled; the notification is saved
      whether or not the user has a device token. */
  function UpdateReservationStatus(reservations: seq<Reservation>, users: seq<User>, notifications: seq<Notification>,
                                   reservationId: string, status: Option<string>, newNotificationId: Id, now: Time)
    : (r: StatusUpdateReply)
    ensures |r.reservations| == |reservations|
    ensures !(status.Some? && status.value in StatusAllowList) ==>
      r == StatusUpdateReply(reservations, notifications, 400)
    ensures status.Some? && status.value in StatusAllowList && FindByReservationId(reservations, reservationId).None? ==>
      r == StatusUpdateReply(reservations, notifications, 404)
    ensures status.Some? && status.value in StatusAllowList && FindByReservationId(reservations, reservationId).Some? ==>
      var i := FindByReservationId(reservations, reservationId).value;
      && r.reservations == reservations[i := reservations[i].(status := status.value)]
      && (FindById(users, reservations[i].user).None? ==> r.status == 404 && r.notifications == notifications)
      && (FindById(users, reservations[i].user).Some? ==>
            && r.status == 200
            && r.notifications == notifications + [NewNotification(newNotificationId, StatusUpdatedTitle,
                                                     StatusUpdatedMessage(status.value), Some(reservations[i].user), now)])
  {
    if !(status.Some? && status.value in StatusAllowList) then StatusUpdateReply(reservations, notifications, 400)
    else match FindByReservationId(reservations, reservationId)
      case None => StatusUpdateReply(reservations, notifications, 404)
      case Some(i) =>
        var updated := reservations[i := reservations[i].(status := status.value)];
        match FindById(users, reservations[i].user)
        case None => StatusUpdateReply(updated, notifications, 404)
        case Some(k) =>
          var n := NewNotification(newNotificationId, StatusUpdatedTitle, StatusUpdatedMessage(status.value),
                                   Some(users[k].id), now);
          StatusUpdateReply(updated, notifications + [n], 200)
  }

  /** The outcome does not depend on whether the user has a device token. */
  lemma UpdateReservationStatusIgnoresDeviceToken(reservations: seq<Reservation>, users: seq<User>,
                                                  notifications: seq<Notification>, reservationId: string,
                                                  status: Option<string>, newNotificationId: Id, now: Time,
                                                  k: nat, token: Option<string>)
    requires k < |users|
    ensures UpdateReservationStatus(reservations, users[k := users[k].(fcmToken := token)], notifications,
                                    reservationId, status, newNotificationId, now)
         == UpdateReservationStatus(reservations, users, notifications, reservationId, status, newNotificationId, now)
  {
    var users' := users[k := users[k].(fcmToken := token)];
    forall id ensures FindById(users', id) == FindById(users, id) {
      FindByIdAfterUpdate(users, k, users[k].(fcmToken := token), id);
    }
  }

  function FindReservation(reservations: seq<Reservation>, id: Id): (r: Option<nat>)
    ensures r.Some? ==> r.value < |reservations| && reservations[r.value].id == id
    ensures r.Some? ==> forall j :: 0 <= j < r.value ==> reservations[j].id != id
    ensures r.None? ==> forall j :: 0 <= j < |reservations| ==> reservations[j].id != id
  {
    FindFirst(reservations, (x: Reservation) => x.id == id)
  }

  /** `cancelReservation`: status 'Canceled' by document id; nothing else changes. */
  function CancelReservation(reservations: seq<Reservation>, id: Id): (r: (seq<Reservation>, int))
    ensures |r.0| == |reservations|
    ensures r.1 == 404 <==> FindReservation(reservations, id).None?
    ensures r.1 == 404 ==> r.0 == reservations
    ensures r.1 != 404 ==>
      && r.1 == 200
      && var i := FindReservation(reservations, id).value;
         && r.0[i] == reservations[i].(status := Canceled)
         && forall j :: 0 <= j < |reservations| && j != i ==> r.0[j] == reservations[j]
  {
    match FindReservation(reservations, id)
    case None => (reservations, 404)
    case Some(i) => (reservations[i := reservations[i].(status := Canceled)], 200)
  }

  /** 'Canceled' is not in the allow-list of `updateReservationStatus`, so a
      cancellation can only come from `cancelReservation`. */
  lemma CanceledOnlyByCancel(reservations: seq<Reservation>, users: seq<User>, notifications: seq<Notification>,
                             reservationId: string, newNotificationId: Id, now: Time)
    ensures UpdateReservationStatus(reservations, users, notifications, reservationId, Some(Canceled),
                                    newNotificationId, now).status == 400
  {
  }

  /** `deleteReservation`: removes the first reservation with that business id. */
  function DeleteReservation(reservations: seq<Reservation>, reservationId: string): (r: (seq<Reservation>, int))
    ensures r.1 == 404 <==> FindByReservationId(reservations, reservationId).None?
    ensures r.1 == 404 ==> r.0 == reservations
    ensures r.1 != 404 ==>
      && r.1 == 200
      && |r.0| == |reservations| - 1
      && var i := FindByReservationId(reservations, reservationId).value;
         && multiset(r.0) + multiset{reservations[i]} == multiset(reservations)
         && forall x :: x in reservations && x.reservationId != reservationId ==> x in r.0
  {
    match FindByReservationId(reservations, reservationId)
    case None => (reservations, 404)
    case Some(i) =>
      assert reservations == reservations[..i] + [reservations[i]] + reservations[i + 1..];
      (reservations[..i] + reservations[i + 1..], 200)
  }
}

=== FILE: roommate_controller.dfy ===
/** controllers/roommateController.js: the one-sided roommate assignment and
    the status update that skips schema validation. */
module RoommateController {
  import opened Base
  import opened UserModel
  import AuthController

  /** `assignRoommateToUser`: only the roommate's record changes; the user it
      is matched with is not updated. A roommate already 'Matched' is refused. */
  function AssignRoommateToUser(users: seq<User>, roommateId: Id, userId: Option<Id>): (r: AuthController.AuthReply)
    ensures |r.users| == |users|
    ensures FindById(users, roommateId).None? ==> r.status == 404 && r.users == users
    ensures FindById(users, roommateId).Some? ==>
      var i := FindById(users, roommateId).value;
      && (users[i].status == Matched ==> r.status == 400 && r.users == users)
      && (users[i].status != Matched ==>
            && r.status == 200
            && r.users[i] == users[i].(status := Matched, matchedWith := userId)
            && forall j :: 0 <= j < |users| && j != i ==> r.users[j] == users[j])
  {
    match FindById(users, roommateId)
    case None => AuthController.AuthReply(users, 404)
    case Some(i) =>
      if users[i].status == Matched then AuthController.AuthReply(users, 400)
      else AuthController.AuthReply(users[i := users[i].(status := Matched, matchedWith := userId)], 200)
  }

  /** A roommate can be assigned once: the second request is refused and
      changes nothing, whoever asks. */
  lemma AssignRoommateToUserOnce(users: seq<User>, roommateId: Id, userId: Option<Id>, otherUserId: Option<Id>)
    requires AssignRoommateToUser(users, roommateId, userId).status == 200
    ensures var after := AssignRoommateToUser(users, roommateId, userId).users;
      AssignRoommateToUser(after, roommateId, otherUserId) == AuthController.AuthReply(after, 400)
  {
    var i := FindById(users, roommateId).value;
    var after := AssignRoommateToUser(users, roommateId, userId).users;
    assert FindById(after, roommateId) == Some(i) by {
      FindByIdAfterUpdate(users, i, after[i], roommateId);
    }
  }

  /** Unlike `assignRoommate` of the authentication controller, this rule is
      one-sided: the partner named by `userId` keeps its status and partner. */
  lemma AssignRoommateToUserIsOneSided(users: seq<User>, roommateId: Id, userId: Id)
    requires roommateId != userId
    requires FindById(users, userId).Some?
    ensures var k := FindById(users, userId).value;
      AssignRoommateToUser(users, roommateId, Some(userId)).users[k] == users[k]
  {
  }

  /** `updateRoommateStatus`: `findByIdAndUpdate` runs no validators, so any
      status string is stored. An absent status leaves the status alone; the
      status 'Available' also clears the partner. */
  function UpdateRoommateStatus(users: seq<User>, roommateId: Id, status: Option<string>): (r: AuthController.AuthReply)
    ensures |r.users| == |users|
    ensures FindById(users, roommateId).None? <==> r.status == 404
    ensures r.status == 404 ==> r.users == users
    ensures r.status != 404 ==>
      var i := FindById(users, roommateId).value;
      && r.status == 200
      && r.users[i].status == (if status.Some? then status.value else users[i].status)
      && r.users[i].matchedWith == (if status == Some(Available) then None else users[i].matchedWith)
      && r.users[i] == users[i].(status := r.users[i].status, matchedWith := r.users[i].matchedWith)
      && forall j :: 0 <= j < |users| && j != i ==> r.users[j] == users[j]
  {
    match FindById(users, roommateId)
    case None => AuthController.AuthReply(users, 404)
    case Some(i) =>
      var u := users[i];
      var u1 := if status.Some? then u.(status := status.value) else u;
      var u2 := if status == Some(Available) then u1.(matchedWith := None) else u1;
      AuthController.AuthReply(users[i := u2], 200)
  }

  /** Skipping validation lets a record leave the schema: a status outside
      'Matched' and 'Available' is stored as given. */
  lemma UpdateRoommateStatusSkipsValidation(users: seq<User>, roommateId: Id)
    requires FindById(users, roommateId).Some?
    ensures var r := UpdateRoommateStatus(users, roommateId, Some("Paused"));
      r.status == 200 && !SchemaValid(r.users[FindById(users, roommateId).value])
  {
  }

  /** Unmatching then assigning again succeeds: 'Available' reopens the roommate. */
  lemma UnmatchReopens(users: seq<User>, roommateId: Id, userId: Option<Id>)
    requires FindById(users, roommateId).Some?
    ensures var after := UpdateRoommateStatus(users, roommateId, Some(Available)).users;
      AssignRoommateToUser(after, roommateId, userId).status == 200
  {
    var i := FindById(users, roommateId).value;
    var after := UpdateRoommateStatus(users, roommateId, Some(Available)).users;
    FindByIdAfterUpdate(users, i, after[i], roommateId);
  }
}

=== FILE: rooms.dfy ===
/** The room record of models/Room.js and the handlers of
    controllers/roomController.js that create, list and update rooms. */
module Rooms {
  import opened Base
  import opened Sorting

  datatype Room = Room(
    id: Id,
    kind: string,
    price: string,
    availability: string,
    address: string,
    latitude: real,
    longitude: real,
    images: seq<string>,
    beds: int,
    owner: Id,
    isFeatured: bool,
    visits: int)

  /** The body of a create request; numbers as JSON numbers, `images` as an array. */
  datatype RoomRequest = RoomRequest(
    kind: Option<string>,
    price: Option<string>,
    availability: Option<string>,
    address: Option<string>,
    latitude: Option<real>,
    longitude: Option<real>,
    beds: Option<int>,
    images: Option<seq<string>>)

  /** A JavaScript number is truthy unless it is absent or zero. */
  predicate TruthyReal(o: Option<real>) { o.Some? && o.value != 0.0 }
  predicate TruthyInt(o: Option<int>) { o.Some? && o.value != 0 }

  /** The guard of `createRoom`: every field present and truthy. An array is
      truthy even when empty. */
  predicate CreateRoomAccepts(req: RoomRequest) {
    && Truthy(req.kind) && Truthy(req.price) && Truthy(req.availability) && Truthy(req.address)
    && TruthyReal(req.latitude) && TruthyReal(req.longitude) && TruthyInt(req.beds)
    && req.images.Some?
  }

  datatype RoomReply = RoomReply(rooms: seq<Room>, status: int)

  /** `createRoom`: 400 unless every field is truthy; otherwise the room is
      appended with the caller as owner, not featured and with no visits.
      `role` is read by the handler but both branches pick the caller. */
  function CreateRoom(rooms: seq<Room>, req: RoomRequest, caller: Id, role: string, newId: Id): (r: RoomReply)
    ensures r.status == 201 <==> CreateRoomAccepts(req)
    ensures r.status != 201 ==> r.status == 400 && r.rooms == rooms
    ensures r.status == 201 ==>
      && |r.rooms| == |rooms| + 1 && r.rooms[..|rooms|] == rooms
      && var room := r.rooms[|rooms|];
         && room.id == newId && room.owner == caller
         && Some(room.kind) == req.kind && Some(room.price) == req.price
         && Some(room.availability) == req.availability && Some(room.address) == req.address
         && Some(room.latitude) == req.latitude && Some(room.longitude) == req.longitude
         && Some(room.beds) == req.beds && Some(room.images) == req.images
         && !room.isFeatured && room.visits == 0
  {
    if !CreateRoomAccepts(req) then RoomReply(rooms, 400)
    else
      var owner := if role == "Room Owner" then caller else caller;
      var room := Room(newId, req.kind.value, req.price.value, req.availability.value, req.address.value,
                       req.latitude.value, req.longitude.value, req.images.value, req.beds.value,
                       owner, false, 0);
      RoomReply(rooms + [room], 201)
  }

  /** Falsy numbers are rejected even where zero is meaningful: a room on the
      equator, or at the prime meridian, cannot be created, while an empty
      list of images is accepted. */
  lemma CreateRoomTruthiness(rooms: seq<Room>, req: RoomRequest, caller: Id, role: string, newId: Id)
    ensures req.latitude == Some(0.0) ==> CreateRoom(rooms, req, caller, role, newId).status == 400
    ensures req.longitude == Some(0.0) ==> CreateRoom(rooms, req, caller, role, newId).status == 400
    ensures req.beds == Some(0) ==> CreateRoom(rooms, req, caller, role, newId).status == 400
    ensures CreateRoomAccepts(req.(images := Some([]))) ==>
      CreateRoom(rooms, req.(images := Some([])), caller, role, newId).status == 201
  {
  }

  /** The owner never depends on the caller's role. */
  lemma CreateRoomIgnoresRole(rooms: seq<Room>, req: RoomRequest, caller: Id, role1: string, role2: string, newId: Id)
    ensures CreateRoom(rooms, req, caller, role1, newId) == CreateRoom(rooms, req, caller, role2, newId)
  {
  }

  /** `getAllRooms`: the rooms of `owner` when one is given, otherwise all. */
  function GetAllRooms(rooms: seq<Room>, owner: Option<Id>): (r: seq<Room>)
    ensures !Truthy(owner) ==> r == rooms
    ensures Truthy(owner) ==> forall x :: x in r <==> x in rooms && x.owner == owner.value
    ensures Truthy(owner) ==> forall x :: multiset(r)[x] == if x.owner == owner.value then multiset(rooms)[x] else 0
  {
    if Truthy(owner) then
      FilterMultiset(rooms, OwnedBy(owner.value));
      Filter(rooms, OwnedBy(owner.value))
    else rooms
  }

  /** The owner filter of `getAllRooms`. */
  function OwnedBy(owner: Id): Room -> bool {
    (x: Room) => x.owner == owner
  }

  predicate IsFeatured(x: Room) { x.isFeatured }

  /** `getFeaturedRooms`: every featured room, with all its copies, and nothing else. */
  function GetFeaturedRooms(rooms: seq<Room>): (r: seq<Room>)
    ensures forall x :: x in r <==> x in rooms && x.isFeatured
    ensures forall x :: multiset(r)[x] == if x.isFeatured then multiset(rooms)[x] else 0
  {
    FilterMultiset(rooms, IsFeatured);
    Filter(rooms, IsFeatured)
  }

  const MostVisitedThreshold := 70

  predicate IsMostVisited(x: Room) { x.visits > MostVisitedThreshold }

  /** Sorting key for `.sort({ visits: -1 })`. */
  function MostVisitedFirst(x: Room): int { -x.visits }

  /** `getMostVisitedRooms`: rooms with more than 70 visits, most visited first. */
  function GetMostVisitedRooms(rooms: seq<Room>): (r: seq<Room>)
    ensures forall x :: x in r <==> x in rooms && x.visits > MostVisitedThreshold
    ensures forall i, j :: 0 <= i < j < |r| ==> r[i].visits >= r[j].visits
    ensures multiset(r) == multiset(Filter(rooms, IsMostVisited))
  {
    var r := SortBy(Filter(rooms, IsMostVisited), MostVisitedFirst);
    assert SortedBy(r, MostVisitedFirst);
    r
  }

  function FindRoom(rooms: seq<Room>, id: Id): (r: Option<nat>)
    ensures r.Some? ==> r.value < |rooms| && rooms[r.value].id == id
    ensures r.Some? ==> forall j :: 0 <= j < r.value ==> rooms[j].id != id
    ensures r.None? ==> forall j :: 0 <= j < |rooms| ==> rooms[j].id != id
  {
    FindFirst(rooms, (x: Room) => x.id == id)
  }

  /** The two availability values the handlers compare against. */
  const RoomAvailable := "Available"
  const FullyBooked := "Fully Booked"

  /** `updateRoomAvailability`: the room becomes 'Fully Booked' and nothing else changes. */
  function UpdateRoomAvailability(rooms: seq<Room>, id: Id): (r: RoomReply)
    ensures |r.rooms| == |rooms|
    ensures r.status == 404 <==> FindRoom(rooms, id).None?
    ensures r.status == 404 ==> r.rooms == rooms
    ensures r.status != 404 ==>
      && r.status == 200
      && var i := FindRoom(rooms, id).value;
         && r.rooms[i] == rooms[i].(availability := FullyBooked)
         && forall j :: 0 <= j < |rooms| && j != i ==> r.rooms[j] == rooms[j]
  {
    match FindRoom(rooms, id)
    case None => RoomReply(rooms, 404)
    case Some(i) => RoomReply(rooms[i := rooms[i].(availability := FullyBooked)], 200)
  }

  /** Booking a room out twice is the same as once. */
  lemma UpdateRoomAvailabilityIdempotent(rooms: seq<Room>, id: Id)
    ensures var once := UpdateRoomAvailability(rooms, id).rooms;
      UpdateRoomAvailability(once, id).rooms == once
  {
    match FindRoom(rooms, id)
    case None =>
    case Some(i) =>
      var once := UpdateRoomAvailability(rooms, id).rooms;
      FindRoomAfterUpdate(rooms, i, once[i], id);
  }

  lemma FindRoomAfterUpdate(rooms: seq<Room>, i: nat, room: Room, id: Id)
    requires i < |rooms| && room.id == rooms[i].id
    ensures FindRoom(rooms[i := room], id) == FindRoom(rooms, id)
  {
    assert forall j :: 0 <= j < |rooms| ==> (rooms[i := room][j].id == id <==> rooms[j].id == id);
  }
}

=== FILE: socket_server.dfy ===
/** The socket event handlers of server.js, as functions from one event and
    the message store to the new store and the actions taken: rooms joined
    and events emitted to rooms. Room membership and delivery belong to the
    socket library and are not modelled. */
module SocketServer {
  import opened Base
  import opened ChatModel
  import opened ChatController

  /** The `file` object of an `uploadFile` event. */
  datatype FileRef = FileRef(url: Option<string>)

  /** The events a client connection can send. */
  datatype Event =
    | JoinRoom(roomId: Option<string>)
    | SendMessage(roomId: Option<string>, senderId: Option<Id>, receiverId: Option<Id>,
                  message: Option<string>, fileUrl: Option<string>, fileType: Option<string>)
    | MarkAsReadEvent(userId: Option<Id>, roommateId: Option<Id>, roomId: Option<string>)
    | UploadFile(roomId: Option<string>, senderId: Option<Id>, receiverId: Option<Id>,
                 file: Option<FileRef>, fileType: Option<string>)
    | Disconnect

  /** The payloads the server emits to a room. */
  datatype Payload =
    | ReceiveMessage(saved: Message)
    | MessageRead(userId: Id, roommateId: Id, roomId: string)

  /** What a handler does besides writing the store. */
  datatype Action =
    | Join(joined: string)
    | Emit(room: Option<string>, payload: Payload)

  datatype Step = Step(store: seq<Message>, actions: seq<Action>)

  /** The scheme part of `^https?:\/\/`: its length, or 0 when absent. */
  function SchemeLength(s: string): (k: nat)
    ensures k == 0 || k == 7 || k == 8
    ensures k <= |s|
  {
    if StartsWith(s, "https://") then 8
    else if StartsWith(s, "http://") then 7
    else 0
  }

  /** End of the host part `[^\/]+`: the first '/' at or after `i`, or |s|. */
  function HostEnd(s: string, i: nat): (e: nat)
    requires i <= |s|
    ensures i <= e <= |s|
    ensures e < |s| ==> s[e] == '/'
    ensures forall j :: i <= j < e ==> s[j] != '/'
    decreases |s| - i
  {
    if i == |s| || s[i] == '/' then i else HostEnd(s, i + 1)
  }

  /** Whether `^https?:\/\/[^\/]+` matches: a scheme followed by at least one non-'/' character. */
  predicate HasBaseUrl(s: string) {
    var k := SchemeLength(s);
    k > 0 && k < |s| && s[k] != '/'
  }

  /** `fullUrl.replace(/^https?:\/\/[^\/]+/, '')`. */
  function StripBaseUrl(s: string): (r: string)
    ensures !HasBaseUrl(s) ==> r == s
    ensures HasBaseUrl(s) ==>
      && (r == "" || r[0] == '/')
      && |r| < |s|
      && (exists scheme, host ::
            && (scheme == "http://" || scheme == "https://")
            && |host| > 0
            && (forall j :: 0 <= j < |host| ==> host[j] != '/')
            && s == scheme + host + r)
  {
    if !HasBaseUrl(s) then s
    else
      var k := SchemeLength(s);
      var e := HostEnd(s, k);
      assert s == s[..k] + s[k..e] + s[e..];
      s[e..]
  }

  /** `joinRoom`: a falsy room id joins nothing. */
  function HandleJoinRoom(store: seq<Message>, roomId: Option<string>): (r: Step)
    ensures r.store == store
    ensures Truthy(roomId) ==> r.actions == [Join(roomId.value)]
    ensures !Truthy(roomId) ==> r.actions == []
  {
    if !Truthy(roomId) then Step(store, []) else Step(store, [Join(roomId.value)])
  }

  /** Persist through `saveMessage`, then emit `receiveMessage` with the saved
      record; a failed save is logged and emits nothing. */
  function SaveAndBroadcast(store: seq<Message>, roomId: Option<string>, data: ChatFields, now: Time): Step {
    var saved := SaveMessage(store, data, now);
    match saved.outcome
    case Success(m) => Step(saved.store, [Emit(roomId, ReceiveMessage(m))])
    case Failure(_) => Step(store, [])
  }

  /** The record a `sendMessage` event asks to store. */
  function SendMessageFields(senderId: Option<Id>, receiverId: Option<Id>, message: Option<string>,
                             fileUrl: Option<string>, fileType: Option<string>, now: Time): ChatFields {
    ChatFields(senderId, receiverId,
               Some(OrElse(message, "")),
               Some(OrElse(fileUrl, "")),
               Some(OrElse(fileType, "none")),
               Some(now),
               Some(false),
               None)
  }

  /** One event of one connection, at time `now`. */
  function Handle(store: seq<Message>, ev: Event, now: Time): (r: Step)
    // every emitted message is the record the same event appended to the store
    ensures forall a :: a in r.actions && a.Emit? && a.payload.ReceiveMessage? ==>
      r.store == store + [a.payload.saved]
    // the store only ever grows by appending, or is updated in place by mark-as-read
    ensures |r.store| == |store| || (|r.store| == |store| + 1 && r.store[..|store|] == store)
    ensures |r.actions| <= 1
  {
    match ev
    case JoinRoom(roomId) => HandleJoinRoom(store, roomId)
    case SendMessage(roomId, senderId, receiverId, message, fileUrl, fileType) =>
      SaveAndBroadcast(store, roomId, SendMessageFields(senderId, receiverId, message, fileUrl, fileType, now), now)
    case MarkAsReadEvent(userId, roommateId, roomId) =>
      if !Truthy(userId) || !Truthy(roommateId) || !Truthy(roomId) then Step(store, [])
      else Step(MarkRead(store, userId.value, roommateId.value),
                [Emit(roomId, MessageRead(userId.value, roommateId.value, roomId.value))])
    case UploadFile(roomId, senderId, receiverId, file, fileType) =>
      if file.None? || file.value.url.None? then Step(store, [])
      else
        var data := ChatFields(senderId, receiverId, Some(""), Some(StripBaseUrl(file.value.url.value)),
                               fileType, Some(now), Some(false), None);
        SaveAndBroadcast(store, roomId, data, now)
    case Disconnect => Step(store, [])
  }

  /** `sendMessage` stores the defaulted message through `saveMessage` and
      emits it to the room exactly when the save succeeds. */
  lemma SendMessageContract(store: seq<Message>, roomId: Option<string>, senderId: Option<Id>, receiverId: Option<Id>,
                            message: Option<string>, fileUrl: Option<string>, fileType: Option<string>, now: Time)
    ensures var r := Handle(store, SendMessage(roomId, senderId, receiverId, message, fileUrl, fileType), now);
      && (r.actions != [] <==> Truthy(senderId) && Truthy(receiverId)
                               && (!Truthy(fileType) || ParseFileType(fileType.value).Some?))
      && (r.actions == [] ==> r.store == store)
      && (r.actions != [] ==>
            && |r.actions| == 1 && r.actions[0].Emit? && r.actions[0].room == roomId
            && r.actions[0].payload.ReceiveMessage?
            && (var m := r.actions[0].payload.saved;
                && r.store == store + [m]
                && m.senderId == senderId.value && m.receiverId == receiverId.value
                && m.message == OrElse(message, "")
                && m.fileUrl == OrElse(fileUrl, "")
                && (Truthy(fileType) ==> Some(m.fileType) == ParseFileType(fileType.value))
                && (!Truthy(fileType) ==> m.fileType == NoFile)
                && m.timestamp == now && !m.read && m.deletedFor == []))
  {
  }

  /** The socket `markAsRead`: any missing id changes and emits nothing;
      otherwise the same directional update as the REST handler, then one
      `messageRead` to the room. */
  lemma MarkAsReadEventContract(store: seq<Message>, userId: Option<Id>, roommateId: Option<Id>, roomId: Option<string>, now: Time)
    ensures var r := Handle(store, MarkAsReadEvent(userId, roommateId, roomId), now);
      && (!Truthy(userId) || !Truthy(roommateId) || !Truthy(roomId) ==> r == Step(store, []))
      && (Truthy(userId) && Truthy(roommateId) && Truthy(roomId) ==>
            && r.store == MarkAsRead(store, userId, roommateId).store
            && r.actions == [Emit(roomId, MessageRead(userId.value, roommateId.value, roomId.value))])
  {
  }

  /** `uploadFile`: a missing file or url, a falsy sender or receiver, or an
      out-of-enum `fileType` throws inside the handler and nothing is stored
      or emitted; otherwise the record is stored and emitted to the room with
      no text, the url without its scheme and host, and the given (or
      defaulted) kind. */
  lemma UploadFileContract(store: seq<Message>, roomId: Option<string>, senderId: Option<Id>, receiverId: Option<Id>,
                           file: Option<FileRef>, fileType: Option<string>, now: Time)
    ensures var r := Handle(store, UploadFile(roomId, senderId, receiverId, file, fileType), now);
      && (file.None? || file.value.url.None? ==> r == Step(store, []))
      && (r.actions != [] <==>
            && file.Some? && file.value.url.Some?
            && Truthy(senderId) && Truthy(receiverId)
            && (!Truthy(fileType) || ParseFileType(fileType.value).Some?))
      && (r.actions == [] ==> r.store == store)
      && (r.actions != [] ==>
            && |r.actions| == 1 && r.actions[0].Emit? && r.actions[0].room == roomId
            && r.actions[0].payload.ReceiveMessage?
            && (var m := r.actions[0].payload.saved;
                && r.store == store + [m]
                && m.senderId == senderId.value && m.receiverId == receiverId.value
                && m.message == ""
                && m.fileUrl == StripBaseUrl(file.value.url.value)
                && (Truthy(fileType) ==> Some(m.fileType) == ParseFileType(fileType.value))
                && (!Truthy(fileType) ==> m.fileType == NoFile)
                && m.timestamp == now && !m.read && m.deletedFor == []))
  {
  }

  /** The two upload paths disagree on the url they store for the same file:
      the REST path stores 'uploads/others/<name>', the socket path, given the
      full url of that file, stores it with a leading '/'. All other fields agree. */
  lemma UploadPathsDifferInLeadingSlash(store: seq<Message>, senderId: Id, receiverId: Id,
                                        file: Upload.UploadedFile, host: string, now: Time)
    requires senderId != "" && receiverId != ""
    requires |host| > 0 && forall j :: 0 <= j < |host| ==> host[j] != '/'
    ensures var url := "http://" + host + "/" + RestUploadFolder + file.filename;
      var kind := KindOfMimetype(file.mimetype);
      var rest := UploadFileAndSaveMessage(store, Some(senderId), Some(receiverId), None, Some(file), now);
      var sock := Handle(store, UploadFile(None, Some(senderId), Some(receiverId), Some(FileRef(Some(url))), Some(kind)), now);
      && rest.created.Some? && |sock.actions| == 1
      && sock.actions[0].Emit? && sock.actions[0].payload.ReceiveMessage?
      && rest.created.value.fileUrl == RestUploadFolder + file.filename
      && sock.actions[0].payload.saved.fileUrl == "/" + RestUploadFolder + file.filename
      && sock.actions[0].payload.saved == rest.created.value.(fileUrl := "/" + RestUploadFolder + file.filename)
  {
    var url := "http://" + host + "/" + RestUploadFolder + file.filename;
    var tail := "/" + RestUploadFolder + file.filename;
    assert url == "http://" + host + tail;
    assert SchemeLength(url) == 7 by {
      assert url[..7] == "http://";
      assert url[4] == ':';
    }
    HostEndAt(url, 7, 7 + |host|);
    assert url[7 + |host|..] == tail;
  }

  lemma {:induction false} HostEndAt(s: string, i: nat, e: nat)
    requires i <= e < |s| && s[e] == '/'
    requires forall j :: i <= j < e ==> s[j] != '/'
    ensures HostEnd(s, i) == e
    decreases e - i
  {
    if i < e {
      HostEndAt(s, i + 1, e);
    }
  }

  /** Number of `receiveMessage` emits among the actions. */
  function Deliveries(actions: seq<Action>): nat {
    if |actions| == 0 then 0
    else
      (if actions[0].Emit? && actions[0].payload.ReceiveMessage? then 1 else 0)
        + Deliveries(actions[1..])
  }

  /** A run of timestamped events, handled in order; all actions concatenated. */
  function Run(store: seq<Message>, events: seq<(Event, Time)>): (r: Step)
    ensures |r.store| >= |store|
    ensures |r.store| - |store| == Deliveries(r.actions)
    decreases |events|
  {
    if |events| == 0 then Step(store, [])
    else
      var first := Handle(store, events[0].0, events[0].1);
      var rest := Run(first.store, events[1..]);
      DeliveriesAppend(first.actions, rest.actions);
      Step(rest.store, first.actions + rest.actions)
  }

  lemma {:induction false} DeliveriesAppend(a: seq<Action>, b: seq<Action>)
    ensures Deliveries(a + b) == Deliveries(a) + Deliveries(b)
  {
    if |a| == 0 {
      assert a + b == b;
    } else {
      assert (a + b)[0] == a[0];
      assert (a + b)[1..] == a[1..] + b;
      DeliveriesAppend(a[1..], b);
    }
  }

  predicate IsEmit(a: Action) { a.Emit? }

  predicate IsNotJoin(e: (Event, Time)) { !e.0.JoinRoom? }

  /** Joining a room neither writes the store nor emits anything: removing
      every `joinRoom` event from a run leaves the final store and the
      sequence of emits exactly as they were. */
  lemma {:induction false} JoinsAreStoreNeutral(store: seq<Message>, events: seq<(Event, Time)>)
    ensures Run(store, Filter(events, IsNotJoin)).store == Run(store, events).store
    ensures Filter(Run(store, Filter(events, IsNotJoin)).actions, IsEmit) == Filter(Run(store, events).actions, IsEmit)
    decreases |events|
  {
    if |events| > 0 {
      var e := events[0];
      var first := Handle(store, e.0, e.1);
      var keptRest := Filter(events[1..], IsNotJoin);
      JoinsAreStoreNeutral(first.store, events[1..]);
      RunCons(store, e, events[1..]);
      assert events == [e] + events[1..];
      FilterAppend(first.actions, Run(first.store, events[1..]).actions, IsEmit);
      if IsNotJoin(e) {
        assert Filter(events, IsNotJoin) == [e] + keptRest;
        RunCons(store, e, keptRest);
        FilterAppend(first.actions, Run(first.store, keptRest).actions, IsEmit);
      } else {
        assert Filter(events, IsNotJoin) == keptRest;
        assert first.store == store && Filter(first.actions, IsEmit) == [];
      }
    }
  }

  /** A run starting with `e` handles `e`, then runs the rest from the store it left. */
  lemma RunCons(store: seq<Message>, e: (Event, Time), rest: seq<(Event, Time)>)
    ensures var first := Handle(store, e.0, e.1);
      var tail := Run(first.store, rest);
      Run(store, [e] + rest) == Step(tail.store, first.actions + tail.actions)
  {
    assert ([e] + rest)[0] == e && ([e] + rest)[1..] == rest;
  }
}

=== FILE: sorting.dfy ===
/** The `.sort({ field: 1 })` / `.sort({ field: -1 })` step of the store's
    queries, as a stable insertion sort on an integer key. Ascending order
    on `key`; a descending sort uses the negated field as key. */
module Sorting {

  predicate SortedBy<T>(s: seq<T>, key: T -> int) {
    forall i, j :: 0 <= i < j < |s| ==> key(s[i]) <= key(s[j])
  }

  /** Inserts `x` before the first element whose key is not smaller. */
  function Insert<T(!new)>(x: T, s: seq<T>, key: T -> int): (r: seq<T>)
    requires SortedBy(s, key)
    ensures SortedBy(r, key)
    ensures multiset(r) == multiset(s) + multiset{x}
    ensures |r| == |s| + 1
    ensures forall y :: y in r <==> y == x || y in s
  {
    if |s| == 0 then [x]
    else if key(x) <= key(s[0]) then [x] + s
    else
      SortedTail(s, key);
      HeadIsMin(s, key);
      var rest := Insert(x, s[1..], key);
      ConsSorted(s[0], rest, key);
      assert s == [s[0]] + s[1..];
      [s[0]] + rest
  }

  lemma SortedTail<T>(s: seq<T>, key: T -> int)
    requires SortedBy(s, key) && |s| > 0
    ensures SortedBy(s[1..], key)
  {
    forall i, j | 0 <= i < j < |s[1..]| ensures key(s[1..][i]) <= key(s[1..][j]) {
      assert s[1..][i] == s[i + 1] && s[1..][j] == s[j + 1];
    }
  }

  lemma HeadIsMin<T>(s: seq<T>, key: T -> int)
    requires SortedBy(s, key) && |s| > 0
    ensures forall y :: y in s ==> key(s[0]) <= key(y)
  {
    forall y | y in s ensures key(s[0]) <= key(y) {
      var k :| 0 <= k < |s| && s[k] == y;
    }
  }

  lemma ConsSorted<T>(h: T, s: seq<T>, key: T -> int)
    requires SortedBy(s, key)
    requires forall y :: y in s ==> key(h) <= key(y)
    ensures SortedBy([h] + s, key)
  {
    var r := [h] + s;
    forall i, j | 0 <= i < j < |r| ensures key(r[i]) <= key(r[j]) {
      assert r[j] == s[j - 1];
      if i > 0 {
        assert r[i] == s[i - 1];
      } else {
        assert s[j - 1] in s;
      }
    }
  }

  /** `s` reordered so that keys never decrease. */
  function SortBy<T(!new)>(s: seq<T>, key: T -> int): (r: seq<T>)
    ensures SortedBy(r, key)
    ensures multiset(r) == multiset(s)
    ensures |r| == |s|
    ensures forall x :: x in r <==> x in s
  {
    if |s| == 0 then []
    else
      assert s == [s[0]] + s[1..];
      var r := Insert(s[0], SortBy(s[1..], key), key);
      assert forall x :: x in r <==> x in multiset(r);
      r
  }

  /** Sorting a sequence already in strictly increasing key order changes
      nothing. With distinct keys that order is the only sorted one, so the
      result does not depend on how ties would be broken. */
  lemma {:induction false} SortSortedIsIdentity<T(!new)>(s: seq<T>, key: T -> int)
    requires forall i, j :: 0 <= i < j < |s| ==> key(s[i]) < key(s[j])
    ensures SortBy(s, key) == s
  {
    if |s| > 0 {
      assert SortedBy(s[1..], key);
      SortSortedIsIdentity(s[1..], key);
    }
  }
}

=== FILE: stats.dfy ===
/** The three count aggregations of controllers/statsController.js and the
    invariants that relate their numbers. */
module Stats {
  import opened Base
  import opened UserModel
  import Rooms
  import Reservations

  datatype UserStats = UserStats(
    totalUsers: nat,
    matchedUsers: nat,
    availableUsers: nat,
    students: nat,
    roomOwners: nat,
    admins: nat)

  predicate IsMatched(u: User) { u.status == Matched }
  predicate IsAvailable(u: User) { u.status == Available }
  predicate IsStudent(u: User) { u.role == Student }
  predicate IsRoomOwner(u: User) { u.role == RoomOwner }
  predicate IsAdmin(u: User) { u.role == Admin }

  /** `getUserStats`: one `countDocuments` per status and per role. */
  function GetUserStats(users: seq<User>): (r: UserStats)
    ensures r.totalUsers == |users|
    ensures r.matchedUsers + r.availableUsers <= r.totalUsers
    ensures r.students + r.roomOwners + r.admins <= r.totalUsers
    ensures r.matchedUsers == |Filter(users, IsMatched)| && r.availableUsers == |Filter(users, IsAvailable)|
    ensures r.students == |Filter(users, IsStudent)| && r.roomOwners == |Filter(users, IsRoomOwner)|
    ensures r.admins == |Filter(users, IsAdmin)|
  {
    CountDisjoint(users, IsMatched, IsAvailable);
    CountPartition3(users, IsStudent, IsRoomOwner, IsAdmin);
    UserStats(|users|, Count(users, IsMatched), Count(users, IsAvailable),
              Count(users, IsStudent), Count(users, IsRoomOwner), Count(users, IsAdmin))
  }

  /** When every stored user satisfies the schema, each user is counted in
      exactly one status and exactly one role. Records written without
      validation can make both sums fall short of the total. */
  lemma UserStatsPartition(users: seq<User>)
    requires forall u :: u in users ==> SchemaValid(u)
    ensures var r := GetUserStats(users);
      && r.matchedUsers + r.availableUsers == r.totalUsers
      && r.students + r.roomOwners + r.admins == r.totalUsers
  {
    CountDisjoint(users, IsMatched, IsAvailable);
    CountPartition3(users, IsStudent, IsRoomOwner, IsAdmin);
  }

  /** One `$group` bucket: a room type and how many rooms have it. */
  datatype TypeCount = TypeCount(kind: string, count: nat)

  /** The room types that have a bucket. */
  function Kinds(gs: seq<TypeCount>): set<string> {
    if |gs| == 0 then {} else {gs[0].kind} + Kinds(gs[1..])
  }

  /** No two buckets share a type. */
  predicate DistinctKinds(gs: seq<TypeCount>) {
    |gs| > 0 ==> gs[0].kind !in Kinds(gs[1..]) && DistinctKinds(gs[1..])
  }

  /** The count of the bucket for `kind`, 0 when there is none. */
  function CountOf(gs: seq<TypeCount>, kind: string): nat {
    if |gs| == 0 then 0
    else if gs[0].kind == kind then gs[0].count
    else CountOf(gs[1..], kind)
  }

  function Sum(gs: seq<TypeCount>): nat {
    if |gs| == 0 then 0 else gs[0].count + Sum(gs[1..])
  }

  predicate AllPositive(gs: seq<TypeCount>) {
    forall i :: 0 <= i < |gs| ==> gs[i].count > 0
  }

  /** Counting one more room of type `kind`: its bucket grows by one, or a new
      bucket of one is added at the end. */
  function AddToGroups(gs: seq<TypeCount>, kind: string): (r: seq<TypeCount>)
    requires DistinctKinds(gs)
    ensures DistinctKinds(r)
    ensures Kinds(r) == Kinds(gs) + {kind}
    ensures Sum(r) == Sum(gs) + 1
    ensures forall k :: CountOf(r, k) == CountOf(gs, k) + (if k == kind then 1 else 0)
    ensures AllPositive(gs) ==> AllPositive(r)
  {
    if |gs| == 0 then [TypeCount(kind, 1)]
    else if gs[0].kind == kind then
      var r := [gs[0].(count := gs[0].count + 1)] + gs[1..];
      assert r[1..] == gs[1..];
      r
    else
      var rest := AddToGroups(gs[1..], kind);
      var r := [gs[0]] + rest;
      assert r[1..] == rest;
      assert AllPositive(gs) ==> AllPositive(gs[1..]) by {
        if AllPositive(gs) {
          forall i | 0 <= i < |gs[1..]| ensures gs[1..][i].count > 0 { assert gs[1..][i] == gs[i + 1]; }
        }
      }
      r
  }

  /** `Room.aggregate([{ $group: { _id: '$type', count: { $sum: 1 } } }])`,
      one room at a time. */
  function GroupByType(rooms: seq<Rooms.Room>): (r: seq<TypeCount>)
    ensures DistinctKinds(r)
    ensures Sum(r) == |rooms|
    ensures AllPositive(r)
    ensures forall k :: CountOf(r, k) == Count(rooms, (x: Rooms.Room) => x.kind == k)
    ensures forall k :: k in Kinds(r) <==> exists x :: x in rooms && x.kind == k
  {
    if |rooms| == 0 then []
    else
      var rest := GroupByType(rooms[1..]);
      assert forall x :: x in rooms <==> x == rooms[0] || x in rooms[1..];
      AddToGroups(rest, rooms[0].kind)
  }

  datatype RoomStats = RoomStats(
    totalRooms: nat,
    availableRooms: nat,
    occupiedRooms: nat,
    roomTypes: seq<TypeCount>)

  predicate RoomIsAvailable(x: Rooms.Room) { x.availability == Rooms.RoomAvailable }
  predicate RoomIsBooked(x: Rooms.Room) { x.availability == Rooms.FullyBooked }

  /** `getRoomStats`: the availability counts match the exact strings
      'Available' and 'Fully Booked'; every other string is in neither. */
  function GetRoomStats(rooms: seq<Rooms.Room>): (r: RoomStats)
    ensures r.totalRooms == |rooms|
    ensures r.availableRooms + r.occupiedRooms <= r.totalRooms
    ensures r.availableRooms == |Filter(rooms, RoomIsAvailable)|
    ensures r.occupiedRooms == |Filter(rooms, RoomIsBooked)|
    ensures DistinctKinds(r.roomTypes) && Sum(r.roomTypes) == r.totalRooms && AllPositive(r.roomTypes)
    ensures forall k :: CountOf(r.roomTypes, k) == Count(rooms, (x: Rooms.Room) => x.kind == k)
    ensures forall k :: k in Kinds(r.roomTypes) <==> exists x :: x in rooms && x.kind == k
  {
    CountDisjoint(rooms, RoomIsAvailable, RoomIsBooked);
    RoomStats(|rooms|, Count(rooms, RoomIsAvailable), Count(rooms, RoomIsBooked), GroupByType(rooms))
  }

  datatype ReservationStats = ReservationStats(
    totalReservations: nat,
    pendingReservations: nat,
    confirmedReservations: nat,
    canceledReservations: nat)

  predicate IsPending(x: Reservations.Reservation) { x.status == Reservations.Pending }
  predicate IsApproved(x: Reservations.Reservation) { x.status == Reservations.Approved }
  predicate IsCanceled(x: Reservations.Reservation) { x.status == Reservations.Canceled }
  predicate IsRejected(x: Reservations.Reservation) { x.status == Reservations.Rejected }

  /** `getReservationStats`: "confirmed" counts status 'Approved'. */
  function GetReservationStats(reservations: seq<Reservations.Reservation>): (r: ReservationStats)
    ensures r.totalReservations == |reservations|
    ensures r.pendingReservations + r.confirmedReservations + r.canceledReservations <= r.totalReservations
    ensures r.pendingReservations == |Filter(reservations, IsPending)|
    ensures r.confirmedReservations == |Filter(reservations, IsApproved)|
    ensures r.canceledReservations == |Filter(reservations, IsCanceled)|
  {
    CountPartition3(reservations, IsPending, IsApproved, IsCanceled);
    ReservationStats(|reservations|, Count(reservations, IsPending), Count(reservations, IsApproved),
                     Count(reservations, IsCanceled))
  }

  /** Rejected reservations fall in no bucket: when every status is one the
      handlers write, the three counts miss exactly the rejected ones. */
  lemma RejectedInNoBucket(reservations: seq<Reservations.Reservation>)
    requires forall x :: x in reservations ==>
      x.status in {Reservations.Pending, Reservations.Approved, Reservations.Rejected, Reservations.Canceled}
    ensures var r := GetReservationStats(reservations);
      r.pendingReservations + r.confirmedReservations + r.canceledReservations + Count(reservations, IsRejected)
      == r.totalReservations
  {
    CountPartition4(reservations, IsPending, IsApproved, IsCanceled, IsRejected);
  }
}

=== FILE: upload.dfy ===
/** The multer configuration of middleware/upload.js: where an uploaded file
    is stored, the name it is stored under, and the extension allow-list. */
module Upload {
  import opened Base

  /** The part of multer's `req.file` the handlers read. */
  datatype UploadedFile = UploadedFile(
    originalname: string,
    mimetype: string,
    filename: string,
    path: string,
    size: nat)

  /** The request fields the destination choice depends on. */
  datatype UploadRequest = UploadRequest(
    isSignup: Option<string>,
    chatFolder: Option<string>,
    userId: Option<Id>)

  const UploadsRoot := "./uploads/"

  /** Storage folder, by priority: a sign-up picture, then a chat folder,
      then the authenticated user's folder, then the shared 'others' folder. */
  function Destination(req: UploadRequest): (folder: string)
    ensures StartsWith(folder, UploadsRoot)
  {
    if Truthy(req.isSignup) then UploadsRoot + "pictures"
    else if Truthy(req.chatFolder) then UploadsRoot + "chats/" + req.chatFolder.value
    else if Truthy(req.userId) then UploadsRoot + req.userId.value
    else UploadsRoot + "others"
  }

  /** A sign-up flag overrides every other field, a chat folder overrides the
      user, the user's folder comes next, and only a request with none of the
      three lands in 'others'. */
  lemma DestinationPriority(req: UploadRequest, chatFolder: Option<string>, userId: Option<Id>)
    ensures Truthy(req.isSignup) ==>
      Destination(req) == Destination(req.(chatFolder := chatFolder, userId := userId)) == "./uploads/pictures"
    ensures !Truthy(req.isSignup) && Truthy(req.chatFolder) ==>
      Destination(req) == Destination(req.(userId := userId)) == "./uploads/chats/" + req.chatFolder.value
    ensures !Truthy(req.isSignup) && !Truthy(req.chatFolder) && Truthy(req.userId) ==>
      Destination(req) == "./uploads/" + req.userId.value
    ensures !Truthy(req.isSignup) && !Truthy(req.chatFolder) && !Truthy(req.userId) ==>
      Destination(req) == "./uploads/others"
  {
  }

  /** A file lands in the shared 'others' folder exactly when no sign-up flag
      and no chat folder is given and there is no signed-in user, or the
      signed-in user's id is itself 'others'. */
  lemma OthersFolderExactly(req: UploadRequest)
    ensures Destination(req) == "./uploads/others" <==>
      && !Truthy(req.isSignup) && !Truthy(req.chatFolder)
      && (!Truthy(req.userId) || req.userId.value == "others")
  {
    var d := Destination(req);
    if Truthy(req.isSignup) {
      assert d[10] == 'p';
      assert "./uploads/others"[10] == 'o';
    } else if Truthy(req.chatFolder) {
      assert d[10] == 'c';
      assert "./uploads/others"[10] == 'o';
    } else if Truthy(req.userId) && d == "./uploads/others" {
      assert d[10..] == req.userId.value;
    }
  }

  /** Splits a path at every '/', as the path module reads it into segments. */
  function Segments(p: string): (segs: seq<string>)
    ensures |segs| >= 1
    decreases |p|
  {
    var k := IndexOf(p, '/');
    if k == |p| then [p] else [p[..k]] + Segments(p[k + 1..])
  }

  lemma SegmentsCons(a: string, b: string)
    requires forall i :: 0 <= i < |a| ==> a[i] != '/'
    ensures Segments(a + "/" + b) == [a] + Segments(b)
  {
    var p := a + "/" + b;
    IndexOfAt(p, '/', |a|);
    assert p[..|a|] == a;
    assert p[|a| + 1..] == b;
  }

  /** Resolves segments onto the directory `dir` (a list of segment names
      below the working directory): '' and '.' stay, '..' goes up one level,
      or above the working directory when `dir` is already there. */
  function Resolve(dir: seq<string>, segs: seq<string>): seq<string>
    decreases |segs|
  {
    if |segs| == 0 then dir
    else if segs[0] == "" || segs[0] == "." then Resolve(dir, segs[1..])
    else if segs[0] == ".." && |dir| > 0 && dir[|dir| - 1] != ".." then Resolve(dir[..|dir| - 1], segs[1..])
    else Resolve(dir + [segs[0]], segs[1..])
  }

  /** The chat folder is appended to './uploads/chats/' as segments of its own,
      so the resolved folder is the chat folder resolved from 'uploads/chats'. */
  lemma ChatFolderResolution(chatFolder: string)
    requires chatFolder != ""
    ensures Resolve([], Segments(Destination(UploadRequest(None, Some(chatFolder), None))))
         == Resolve(["uploads", "chats"], Segments(chatFolder))
  {
    ChatDestinationSegments(chatFolder);
    ResolveFromChats(Segments(chatFolder));
  }

  lemma ChatDestinationSegments(chatFolder: string)
    requires chatFolder != ""
    ensures Segments(Destination(UploadRequest(None, Some(chatFolder), None)))
         == [".", "uploads", "chats"] + Segments(chatFolder)
  {
    ChatDestinationSpelled(chatFolder);
    SegmentsCons3(".", "uploads", "chats", chatFolder);
  }

  lemma SegmentsCons3(a: string, b: string, c: string, rest: string)
    requires forall i :: 0 <= i < |a| ==> a[i] != '/'
    requires forall i :: 0 <= i < |b| ==> b[i] != '/'
    requires forall i :: 0 <= i < |c| ==> c[i] != '/'
    ensures Segments(a + "/" + (b + "/" + (c + "/" + rest))) == [a, b, c] + Segments(rest)
  {
    var inner := c + "/" + rest;
    var middle := b + "/" + inner;
    var segs := Segments(rest);
    assert Segments(inner) == [c] + segs by { SegmentsCons(c, rest); }
    assert Segments(middle) == [b] + Segments(inner) by { SegmentsCons(b, inner); }
    assert Segments(a + "/" + middle) == [a] + Segments(middle) by { SegmentsCons(a, middle); }
    assert [a] + ([b] + ([c] + segs)) == [a, b, c] + segs;
  }

  lemma ChatDestinationSpelled(chatFolder: string)
    requires chatFolder != ""
    ensures Destination(UploadRequest(None, Some(chatFolder), None))
         == "." + "/" + ("uploads" + "/" + ("chats" + "/" + chatFolder))
  {
  }

  lemma ResolveFromChats(segs: seq<string>)
    ensures Resolve([], [".", "uploads", "chats"] + segs) == Resolve(["uploads", "chats"], segs)
  {
    var s0 := [".", "uploads", "chats"] + segs;
    var s1 := ["uploads", "chats"] + segs;
    var s2 := ["chats"] + segs;
    assert s0[0] == "." && s0[1..] == s1;
    assert s1[0] == "uploads" && s1[1..] == s2;
    assert s2[0] == "chats" && s2[1..] == segs;
    assert Resolve([], s0) == Resolve([], s1);
    assert Resolve([], s1) == Resolve(["uploads"], s2) by { assert [] + ["uploads"] == ["uploads"]; }
    assert Resolve(["uploads"], s2) == Resolve(["uploads", "chats"], segs) by {
      assert ["uploads"] + ["chats"] == ["uploads", "chats"];
    }
  }

  /** The destination is only a string prefix: a chat folder of '../../x'
      gives './uploads/chats/../../x', which names the folder 'x' beside
      'uploads' in the working directory. */
  lemma ChatFolderEscapesUploads()
    ensures var d := Destination(UploadRequest(None, Some("../../x"), None));
      && StartsWith(d, UploadsRoot)
      && Resolve([], Segments(d)) == ["x"]
  {
    ChatFolderResolution("../../x");
    EscapeSegments();
    EscapeResolves();
  }

  lemma EscapeSegments()
    ensures Segments("../../x") == ["..", "..", "x"]
  {
    assert "../../x" == ".." + "/" + (".." + "/" + "x");
    SegmentsOfThree("..", "..", "x");
  }

  lemma SegmentsOfThree(a: string, b: string, c: string)
    requires forall i :: 0 <= i < |a| ==> a[i] != '/'
    requires forall i :: 0 <= i < |b| ==> b[i] != '/'
    requires forall i :: 0 <= i < |c| ==> c[i] != '/'
    ensures Segments(a + "/" + (b + "/" + c)) == [a, b, c]
  {
    var inner := b + "/" + c;
    assert Segments(c) == [c] by { IndexOfAbsent(c, '/'); }
    assert Segments(inner) == [b] + [c] by { SegmentsCons(b, c); }
    assert Segments(a + "/" + inner) == [a] + Segments(inner) by { SegmentsCons(a, inner); }
  }

  lemma IndexOfAbsent(s: string, c: char)
    requires forall i :: 0 <= i < |s| ==> s[i] != c
    ensures IndexOf(s, c) == |s|
  {
  }

  lemma EscapeResolves()
    ensures Resolve(["uploads", "chats"], ["..", "..", "x"]) == ["x"]
  {
    var segs := ["..", "..", "x"];
    assert segs[1..] == ["..", "x"] && segs[2..] == ["x"];
    assert Resolve(["uploads", "chats"], segs) == Resolve(["uploads"], segs[1..]);
    assert Resolve(["uploads"], segs[1..]) == Resolve([], segs[2..]);
    assert Resolve([], segs[2..]) == Resolve(["x"], []) by { assert [] + ["x"] == ["x"]; }
  }

  predicate IsDigit(c: char) {
    '0' <= c <= '9'
  }

  function DigitChar(d: nat): char
    requires d < 10
  {
    "0123456789"[d]
  }

  /** Decimal rendering of a natural number, as `${Date.now()}` prints it. */
  function Decimal(n: nat): (s: string)
    ensures |s| >= 1
    ensures forall i :: 0 <= i < |s| ==> IsDigit(s[i])
  {
    if n < 10 then [DigitChar(n)]
    else Decimal(n / 10) + [DigitChar(n % 10)]
  }

  /** Value of a string of decimal digits. */
  function DecimalValue(s: string): nat
    requires forall i :: 0 <= i < |s| ==> IsDigit(s[i])
  {
    if |s| == 0 then 0
    else
      var last := s[|s| - 1];
      assert IsDigit(last);
      10 * DecimalValue(s[..|s| - 1]) + (last as int - '0' as int)
  }

  lemma {:induction false} DecimalRoundTrip(n: nat)
    ensures DecimalValue(Decimal(n)) == n
  {
    if n >= 10 {
      var s := Decimal(n);
      assert s[..|s| - 1] == Decimal(n / 10);
      DecimalRoundTrip(n / 10);
    }
  }

  /** The stored file name `<timestamp>-<originalname>`: a run of decimal
      digits, then the first dash, then the original name unchanged. */
  function StoredName(now: nat, originalname: string): (name: string)
    ensures IndexOf(name, '-') == |Decimal(now)| < |name|
    ensures forall i :: 0 <= i < IndexOf(name, '-') ==> IsDigit(name[i])
    ensures name[IndexOf(name, '-') + 1..] == originalname
  {
    var d := Decimal(now);
    var name := d + "-" + originalname;
    assert forall i :: 0 <= i < |d| ==> name[i] == d[i] && name[i] != '-';
    assert IndexOf(name, '-') == |d| by { IndexOfAt(name, '-', |d|); }
    assert name[|d| + 1..] == originalname;
    name
  }

  /** Index of the first `c` in `s`, or |s| when there is none. */
  function IndexOf(s: string, c: char): (k: nat)
    ensures k <= |s|
    ensures k < |s| ==> s[k] == c
    ensures forall i :: 0 <= i < k ==> s[i] != c
  {
    if |s| == 0 then 0
    else if s[0] == c then 0
    else 1 + IndexOf(s[1..], c)
  }

  /** Splits a stored name back into its timestamp and original name. */
  function SplitStoredName(name: string): (nat, string)
  {
    var k := IndexOf(name, '-');
    if k < |name| && forall i :: 0 <= i < k ==> IsDigit(name[i])
    then (DecimalValue(name[..k]), name[k + 1..])
    else (0, name)
  }

  /** The stored name determines both the upload time and the original name,
      whatever characters (dashes included) the original name contains. */
  lemma StoredNameRoundTrip(now: nat, originalname: string)
    ensures SplitStoredName(StoredName(now, originalname)) == (now, originalname)
  {
    var d := Decimal(now);
    var name := StoredName(now, originalname);
    assert name[..|d|] == d;
    DecimalRoundTrip(now);
  }

  lemma {:induction false} IndexOfAt(s: string, c: char, k: nat)
    requires k < |s| && s[k] == c
    requires forall i :: 0 <= i < k ==> s[i] != c
    ensures IndexOf(s, c) == k
  {
    if k > 0 {
      IndexOfAt(s[1..], c, k - 1);
    }
  }

  /** Index of the last occurrence of `c` in `s`. */
  function LastIndexOf(s: string, c: char): (r: Option<nat>)
    ensures r.Some? ==> r.value < |s| && s[r.value] == c
    ensures r.Some? ==> forall i :: r.value < i < |s| ==> s[i] != c
    ensures r.None? ==> forall i :: 0 <= i < |s| ==> s[i] != c
  {
    if |s| == 0 then None
    else if s[|s| - 1] == c then Some(|s| - 1)
    else LastIndexOf(s[..|s| - 1], c)
  }

  /** The last path segment: the longest suffix without a '/'. */
  function Basename(p: string): (b: string)
    ensures |b| <= |p| && b == p[|p| - |b|..]
    ensures forall i :: 0 <= i < |b| ==> b[i] != '/'
    ensures |b| < |p| ==> p[|p| - |b| - 1] == '/'
  {
    match LastIndexOf(p, '/')
    case None => p
    case Some(i) => p[i + 1..]
  }

  /** Node's `path.extname`: from the last '.' of the last segment, or '' when
      that segment has no dot, starts with its only dot run, or is '..'.
      A non-empty result is a suffix of the path holding one '.', at its
      start, and no '/'. */
  function Extname(p: string): (ext: string)
    ensures ext == "" || ext[0] == '.'
    ensures |ext| <= |p| && ext == p[|p| - |ext|..]
    ensures forall i :: 0 <= i < |ext| ==> ext[i] != '/'
    ensures forall i :: 1 <= i < |ext| ==> ext[i] != '.'
    ensures ext != "" ==> |ext| < |Basename(p)|
  {
    var b := Basename(p);
    match LastIndexOf(b, '.')
    case None => ""
    case Some(i) =>
      if i == 0 || b == ".." then ""
      else
        assert b[i..] == p[|p| - |b[i..]|..];
        b[i..]
  }

  function LowerChar(c: char): char {
    if 'A' <= c <= 'Z' then (c as int + 32) as char else c
  }

  /** `toLowerCase` on the ASCII letters; no other character lowers to one of
      the letters of the allowed extensions. */
  function ToLower(s: string): (r: string)
    ensures |r| == |s|
    ensures forall i :: 0 <= i < |s| ==> r[i] == LowerChar(s[i])
  {
    if |s| == 0 then "" else [LowerChar(s[0])] + ToLower(s[1..])
  }

  const AllowedExtensions: seq<string> := [".pdf", ".jpeg", ".jpg", ".png"]
  const InvalidFileTypeMessage := "Invalid file type. Only PDF, JPEG, and PNG are allowed."
  const OctetStream := "application/octet-stream"

  datatype FilterDecision = Accept | Reject(message: string)

  /** `fileFilter` as written, including the clause for mobile clients that
      send `application/octet-stream`. */
  function FileFilter(originalname: string, mimetype: string): (d: FilterDecision)
    ensures d.Accept? <==> ToLower(Extname(originalname)) in AllowedExtensions
    ensures d.Reject? ==> d.message == InvalidFileTypeMessage
  {
    var ext := ToLower(Extname(originalname));
    if ext in AllowedExtensions
       || (mimetype == OctetStream && (ext == ".pdf" || ext == ".jpg" || ext == ".png"))
    then Accept
    else Reject(InvalidFileTypeMessage)
  }

  /** The octet-stream clause adds nothing: the decision never depends on the mimetype. */
  lemma FileFilterIgnoresMimetype(originalname: string, m1: string, m2: string)
    ensures FileFilter(originalname, m1) == FileFilter(originalname, m2)
  {
  }

  /** The extension is compared after lower-casing, so upper-case names pass. */
  lemma FileFilterIgnoresCase(base: string, ext: string, mimetype: string)
    requires ext in AllowedExtensions
    requires forall i :: 0 <= i < |base| ==> base[i] != '/' && base[i] != '.'
    requires |base| > 0
    ensures FileFilter(base + ToUpperExt(ext), mimetype).Accept?
  {
    UpperExtShape(ext);
    ExtnameOfDottedSuffix(base, ToUpperExt(ext));
  }

  /** A name made of a dot-free stem and a suffix with one leading dot has that suffix as extension. */
  lemma ExtnameOfDottedSuffix(base: string, up: string)
    requires forall i :: 0 <= i < |base| ==> base[i] != '/' && base[i] != '.'
    requires |base| > 0
    requires |up| > 1 && up[0] == '.'
    requires forall i :: 1 <= i < |up| ==> up[i] != '.' && up[i] != '/'
    ensures Extname(base + up) == up
  {
    var name := base + up;
    assert forall i :: 0 <= i < |name| ==> name[i] != '/';
    assert Basename(name) == name;
    LastIndexOfSuffix(base, up, '.');
    assert name[|base|..] == up;
  }

  /** Each allowed extension is a dot followed by lower-case letters. */
  lemma AllowedExtensionShape(ext: string)
    requires ext in AllowedExtensions
    ensures |ext| > 1 && ext[0] == '.'
    ensures forall i :: 1 <= i < |ext| ==> 'a' <= ext[i] <= 'z'
  {
    if ext == ".pdf" {
    } else if ext == ".jpeg" {
    } else if ext == ".jpg" {
    } else {
      assert ext == ".png";
    }
  }

  /** Each allowed extension in upper case is a single leading dot followed by
      letters, and lowers back to itself. */
  lemma UpperExtShape(ext: string)
    requires ext in AllowedExtensions
    ensures var up := ToUpperExt(ext);
      && |up| > 1 && up[0] == '.'
      && (forall i :: 1 <= i < |up| ==> up[i] != '.' && up[i] != '/')
      && ToLower(up) == ext
  {
    AllowedExtensionShape(ext);
    var up := ToUpperExt(ext);
    forall i | 0 <= i < |up| ensures LowerChar(up[i]) == ext[i] && (i > 0 ==> 'A' <= up[i] <= 'Z') {
      if i > 0 {
        LowerUpper(ext[i]);
      }
    }
    assert ToLower(up) == ext;
  }

  lemma LowerUpper(c: char)
    requires 'a' <= c <= 'z'
    ensures 'A' <= UpperChar(c) <= 'Z' && LowerChar(UpperChar(c)) == c
  {
  }

  lemma {:induction false} LastIndexOfSuffix(a: string, b: string, c: char)
    requires |b| > 0 && b[0] == c
    requires forall i :: 1 <= i < |b| ==> b[i] != c
    ensures LastIndexOf(a + b, c) == Some(|a|)
  {
    if |b| > 1 {
      var ab := a + b;
      assert ab[..|ab| - 1] == a + b[..|b| - 1];
      LastIndexOfSuffix(a, b[..|b| - 1], c);
    }
  }

  function UpperChar(c: char): char {
    if 'a' <= c <= 'z' then (c as int - 32) as char else c
  }

  /** An allowed extension written in upper case ('.PDF', '.JPEG', ...). */
  function ToUpperExt(s: string): (r: string)
    ensures |r| == |s|
    ensures forall i :: 0 <= i < |s| ==> r[i] == UpperChar(s[i])
  {
    if |s| == 0 then "" else [UpperChar(s[0])] + ToUpperExt(s[1..])
  }
}

=== FILE: user_model.dfy ===
/** The user record of models/User.js, its enumerations and defaults, and the
    pre-save hook that hashes a modified password unless it already looks like
    a bcrypt hash. */
module UserModel {
  import opened Base

  const Student := "Student"
  const RoomOwner := "Room Owner"
  const Admin := "Admin"
  const Matched := "Matched"
  const Available := "Available"

  /** A stored user. `status` and `role` are kept as the stored strings: an
      update that skips validation can write any string into them. */
  datatype User = User(
    id: Id,
    fullName: string,
    email: string,
    password: string,
    phone: Option<string>,
    address: Option<string>,
    age: Option<int>,
    interests: Option<seq<string>>,
    photo: Option<string>,
    resetCode: Option<int>,
    resetCodeExpiry: Option<Time>,
    documents: seq<Id>,
    status: string,
    matchedWith: Option<Id>,
    role: string,
    fcmToken: Option<string>)

  /** The schema's enumerations and required fields hold of the record. */
  predicate SchemaValid(u: User) {
    && (u.status == Matched || u.status == Available)
    && (u.role == Student || u.role == RoomOwner || u.role == Admin)
    && u.fullName != "" && u.email != "" && u.password != ""
  }

  /** `email` is unique across the collection. */
  predicate EmailsUnique(users: seq<User>) {
    forall i, j :: 0 <= i < j < |users| ==> users[i].email != users[j].email
  }

  /** `_id` is unique across the collection. */
  predicate UserIdsUnique(users: seq<User>) {
    forall i, j :: 0 <= i < j < |users| ==> users[i].id != users[j].id
  }

  /** A fresh document as `User.create` builds it: `status` 'Available',
      `matchedWith` null, no documents, no reset code, no device token. */
  function NewUser(id: Id, fullName: string, email: string, password: string, phone: Option<string>,
                   address: Option<string>, age: Option<int>, interests: Option<seq<string>>,
                   photo: Option<string>, role: string): (u: User)
    ensures u.status == Available && u.matchedWith.None? && u.documents == []
    ensures u.resetCode.None? && u.resetCodeExpiry.None? && u.fcmToken.None?
    ensures ((role == Student || role == RoomOwner || role == Admin)
             && fullName != "" && email != "" && password != "") ==> SchemaValid(u)
  {
    User(id, fullName, email, password, phone, address, age, interests, photo,
         None, None, [], Available, None, role, None)
  }

  /** Characters JavaScript's `.` does not match. */
  predicate IsLineTerminator(c: char) {
    c == '\n' || c == '\r' || c == '\U{2028}' || c == '\U{2029}'
  }

  /** Number of UTF-16 code units JavaScript stores for `c`: a character
      outside the Basic Multilingual Plane takes a surrogate pair. */
  function Utf16Units(c: char): nat {
    if c as int >= 0x10000 then 2 else 1
  }

  /** JavaScript's `s.length`, which counts UTF-16 code units. */
  function Utf16Length(s: string): (n: nat)
    ensures |s| <= n <= 2 * |s|
  {
    if |s| == 0 then 0 else Utf16Units(s[0]) + Utf16Length(s[1..])
  }

  lemma {:induction false} Utf16LengthAppend(a: string, b: string)
    ensures Utf16Length(a + b) == Utf16Length(a) + Utf16Length(b)
  {
    if |a| > 0 {
      assert (a + b)[1..] == a[1..] + b;
      Utf16LengthAppend(a[1..], b);
    } else {
      assert a + b == b;
    }
  }

  /** On text inside the Basic Multilingual Plane JavaScript's length is the
      number of characters. */
  lemma {:induction false} Utf16LengthOfBmp(s: string)
    requires forall i :: 0 <= i < |s| ==> s[i] as int < 0x10000
    ensures Utf16Length(s) == |s|
  {
    if |s| > 0 {
      Utf16LengthOfBmp(s[1..]);
    }
  }

  /** `/^\$2[aby]\$.{56}$/.test(p)`. The pattern has no `u` flag, so `.` matches
      one UTF-16 code unit other than a line terminator and the 56 are counted
      in code units. */
  predicate IsBcryptHash(p: string) {
    && |p| >= 4
    && p[0] == '$' && p[1] == '2' && (p[2] == 'a' || p[2] == 'b' || p[2] == 'y') && p[3] == '$'
    && Utf16Length(p[4..]) == 56
    && forall i :: 4 <= i < |p| ==> !IsLineTerminator(p[i])
  }

  /** A password the pattern accepts is 60 code units long, between 32 and 60
      characters, and starts with one of the three bcrypt version prefixes. */
  lemma BcryptHashShape(p: string)
    requires IsBcryptHash(p)
    ensures Utf16Length(p) == 60
    ensures 32 <= |p| <= 60
    ensures p[..4] == "$2a$" || p[..4] == "$2b$" || p[..4] == "$2y$"
  {
    var head, tail := p[..4], p[4..];
    assert Utf16Length(head) == 4 by {
      assert forall i :: 0 <= i < 4 ==> head[i] == p[i];
      Utf16LengthOfBmp(head);
    }
    assert Utf16Length(p) == Utf16Length(head) + Utf16Length(tail) by {
      assert p == head + tail;
      Utf16LengthAppend(head, tail);
    }
    assert head == [p[0], p[1], p[2], p[3]];
  }

  /** A 59-character password ending in a character outside the Basic
      Multilingual Plane passes the pattern: the pre-save hook stores it
      unhashed. */
  lemma AstralPasswordLooksHashed()
    ensures var p := "$2a$" + seq(54, _ => 'a') + ['\U{1F600}'];
      |p| == 59 && IsBcryptHash(p)
  {
    var a := seq(54, _ => 'a');
    var p := "$2a$" + a + ['\U{1F600}'];
    assert p[4..] == a + ['\U{1F600}'];
    Utf16LengthAppend(a, ['\U{1F600}']);
    Utf16LengthOfBmp(a);
    assert Utf16Length(['\U{1F600}']) == 2;
  }

  /** The pre-save hook. `hash` stands for bcrypt with a fresh salt. */
  function PreSave(u: User, passwordModified: bool, hash: string -> string): (r: User)
    ensures r == u.(password := r.password)
    ensures !passwordModified || IsBcryptHash(u.password) ==> r == u
    ensures passwordModified && !IsBcryptHash(u.password) ==> r.password == hash(u.password)
  {
    if !passwordModified then u
    else if IsBcryptHash(u.password) then u
    else u.(password := hash(u.password))
  }

  /** When the hash yields bcrypt-shaped strings, saving again never hashes the
      stored hash a second time. */
  lemma PreSaveNeverHashesTwice(u: User, hash: string -> string)
    requires IsBcryptHash(hash(u.password))
    ensures PreSave(PreSave(u, true, hash), true, hash) == PreSave(u, true, hash)
    ensures IsBcryptHash(PreSave(u, true, hash).password)
  {
  }

  /** Index of the user with the given id (`findById`). */
  function FindById(users: seq<User>, id: Id): (r: Option<nat>)
    ensures r.Some? ==> r.value < |users| && users[r.value].id == id
    ensures r.Some? ==> forall j :: 0 <= j < r.value ==> users[j].id != id
    ensures r.None? ==> forall j :: 0 <= j < |users| ==> users[j].id != id
  {
    FindFirst(users, (x: User) => x.id == id)
  }

  /** Index of the user with the given email (`findOne({ email })`). */
  function FindByEmail(users: seq<User>, email: string): (r: Option<nat>)
    ensures r.Some? ==> r.value < |users| && users[r.value].email == email
    ensures r.Some? ==> forall j :: 0 <= j < r.value ==> users[j].email != email
    ensures r.None? ==> forall j :: 0 <= j < |users| ==> users[j].email != email
  {
    FindFirst(users, (x: User) => x.email == email)
  }

  /** Updating one record without changing its id keeps every id lookup. */
  lemma FindByIdAfterUpdate(users: seq<User>, i: nat, u: User, id: Id)
    requires i < |users| && u.id == users[i].id
    ensures FindById(users[i := u], id) == FindById(users, id)
  {
    assert forall j :: 0 <= j < |users| ==> (users[i := u][j].id == id <==> users[j].id == id);
  }
}
